=== FILE: README.md ===
# A* grid pathfinding visualiser, modelled in Dafny

This project models the core of `visCopt.py`, an interactive A* visualiser.
The grid is a square of spots. Each spot carries a colour, which is its only
state, and a cached list of its surrounding spots: eight inside the grid, five
on an edge and three in a corner. The user picks a start
spot, an end spot and barrier spots, then presses space. The program recomputes
every spot's neighbours and runs A* from start to end. A* pops the open spot
with the least (f, count) key, relaxes that spot's neighbours with unit step
cost, and paints spots open, closed and, on success, path.

The model covers the following:

- the spot's state predicates and mutators, and the barrier log (`cells.dfy`);
- the Manhattan heuristic and its relation to the true move cost (`heuristic.dfy`);
- the neighbour list (`neighbours.dfy`);
- grid construction and the neighbour-recompute pass (`grids.dfy`);
- the priority queue as a sequence of (f, count, spot) entries (`frontier.dfy`);
- scores with an explicit infinity and the termination measure (`scores.dfy`);
- the search state and its steps (`search.dfy`) and the invariants each step keeps (`search_invariants.dfy`);
- the predecessor chain and path reconstruction (`path.dfy`);
- the search method `PathFinding.AStar` (`astar.dfy`);
- the click and key rules that edit the board and launch a search (`editor.dfy`).

`PathFinding.AStar` is proved to do the following:

- terminate;
- return `true` exactly when end is popped, and exactly when a barrier-free route of king moves from start to end exists;
- on success, mark the predecessor chain from end, and that chain read backwards is such a route;
- on failure, leave an empty queue;
- give every spot a colour fixed by the outcome: on success end dark blue, the path purple, queued spots green, expanded spots other than start red, everything else untouched; start keeps its colour unless it lies on the path.

Spots are identified by their coordinates. The source stores spot objects in
neighbour lists, in the predecessor map and in the score maps. Here those are
positions. On a well-formed grid the spot at a position reports that position,
so the two agree (`Grids.PositionsOf`).

Where the code's behaviour may surprise a reader, the model follows the code:

- A neighbour whose score improves while it is already queued is not queued
  again (`visCopt.py:162`). So the queue never holds two entries for a spot, and
  no stale entries are ever skipped. The spot's existing entry keeps its old
  key, which is at least its current f score (`Search.ScoresOk`).
- Marking a barrier appends to the barrier log on every call, duplicates
  included. The hardcoded layout marks some spots twice
  (`visCopt.py:255-258`), and the C key does not clear the log.
- Start is queued with key 0, not with h(start, end) (`visCopt.py:131`).
- A search with start equal to end returns `true` on the first pop, and the
  spot is painted end.
- The heuristic is the Manhattan distance, but moves go in eight directions at
  unit cost. A diagonal step is estimated at 2, so the heuristic is not
  admissible (`Heuristic.NotAdmissible`) and the path found need not be
  shortest. The model proves that a route is found, not that it is optimal.
- `reconstruct_path` paints every spot of the chain, start included, purple.
  Only end is repainted afterwards.

## Model

| member | source | states |
|---|---|---|
| Cells.Spot.Reset | visCopt.py:56-57 | reset changes only the colour, after which no state predicate holds |
| Cells.Spot.MakeClosed | visCopt.py:59-60 | changes only the colour, after which closed is the one state that holds |
| Cells.Spot.MakeOpen | visCopt.py:62-63 | changes only the colour, after which open is the one state that holds |
| Cells.Spot.MakeStart | visCopt.py:69-70 | changes only the colour, after which start is the one state that holds |
| Cells.Spot.MakeEnd | visCopt.py:72-73 | changes only the colour, after which end is the one state that holds |
| Cells.Spot.MakePath | visCopt.py:75-76 | changes only the colour, after which no state predicate holds: path is not one of the five states |
| Cells.MakeBarrier | visCopt.py:105-107 | marking a barrier changes only the colour, makes it the one state that holds, and extends the log by exactly this spot's coordinates |
| Cells.AtMostOneState | visCopt.py:41-54 | at most one of closed, open, barrier, start and end holds, and exactly one holds for the five state colours |
| Cells.BarrierTwiceLogsTwice | visCopt.py:255-258 | marking the same spot twice logs its coordinates twice: the log is not deduplicated |
| Heuristic.H | visCopt.py:114-117 | the heuristic is zero exactly when the two coordinates are equal |
| Heuristic.HSymmetric | visCopt.py:114-117 | the heuristic is symmetric |
| Heuristic.TriangleInequality | visCopt.py:114-117 | the heuristic obeys the triangle inequality |
| Heuristic.HeuristicVersusMoves | visCopt.py:114-117 | Manhattan distance lies between the king-move distance and twice that distance |
| Heuristic.NotAdmissible | visCopt.py:114-117 | one diagonal move costs 1 but is estimated at 2, so the heuristic overestimates |
| Neighbours.CellSet | visCopt.py:133-135 | the score maps' key set holds exactly the on-grid coordinates |
| Neighbours.NeighbourPositions | visCopt.py:81-98 | the list holds exactly the on-grid spots one king's move away, each once |
| Neighbours.RowBelow | visCopt.py:83-88 | the first block holds exactly the neighbours in the row below, each once; 0 of them on the last row |
| Neighbours.RowAbove | visCopt.py:89-94 | the second block holds exactly the neighbours in the row above, each once; 0 of them on the first row |
| Neighbours.SameRow | visCopt.py:95-98 | the last block holds exactly the neighbours in the spot's own row, each once |
| Neighbours.NeighbourOrder | visCopt.py:81-98 | the list is the eight king moves in the fixed order down, down-right, down-left, up, up-right, up-left, right, left, with the off-grid ones dropped |
| Neighbours.NeighbourCount | visCopt.py:81-98 | the list length is the size of the on-grid 3-by-3 block around the spot, minus one |
| Neighbours.NeighbourCountCases | visCopt.py:81-98 | a spot has 3 neighbours in a corner, 5 on an edge and 8 inside |
| Neighbours.NotOwnNeighbour | visCopt.py:81-98 | a spot is never its own neighbour |
| Grids.MakeGrid | visCopt.py:177-186 | rows-by-rows spots, each knowing its own coordinates and the grid size, all white, with no neighbours yet |
| Grids.UpdateNeighbours | visCopt.py:81-98 | recomputing replaces only the neighbour list, with the list computed for the spot's coordinates |
| Grids.PositionsOf | visCopt.py:84-98 | on a well-formed grid, looking up the spots at the computed coordinates gives back exactly those coordinates |
| Grids.UpdateAllNeighbours | visCopt.py:402-405 | after the pass every spot holds its up-to-date list and every colour is unchanged |
| Grids.UpdateAllIdempotent | visCopt.py:402-405 | running the pass twice gives the same grid as running it once |
| Frontier.MinIndex | visCopt.py:146 | the chosen entry's (f, count) key is at most every other entry's key |
| Frontier.PopMin | visCopt.py:146 | extraction returns an entry with the least key, and the remaining entries plus it are the old queue as a multiset |
| Frontier.RemoveAtKeepsShape | visCopt.py:146-147 | removing the popped entry removes exactly its spot from the queued set and keeps spots distinct and counts increasing |
| Frontier.PushKeepsShape | visCopt.py:162-165 | queueing a spot not yet queued, with a larger count, adds exactly that spot and keeps spots distinct and counts increasing |
| Frontier.MinUnique | visCopt.py:109-110 | with increasing counts the least key is unique, so the tie-breaking count alone decides and spots are never compared |
| Frontier.FifoAmongEqualKeys | visCopt.py:163-164 | of two entries with equal f, the later one is never extracted first |
| Scores.LowerOneImproves | visCopt.py:158-160 | lowering one score strictly drops the termination measure: fewer infinite scores, or the same ones and a smaller finite sum |
| Scores.LowerOneMonotone | visCopt.py:158-160 | lowering one score lets no score rise |
| Scores.SumDecrease | visCopt.py:158-160 | lowering the finite score of one key lowers the sum of finite scores |
| Search.Init | visCopt.py:129-138 | every spot's g and f are infinite except start's, which are 0 and h(start, end); the queue and the membership set hold start alone; no predecessors and nothing expanded |
| Search.Pop | visCopt.py:146-147 | the popped spot was queued with a least (f, count) key; exactly that entry leaves the queue and the spot leaves the membership set and is recorded as expanded; scores, predecessors, grid and counter are unchanged |
| Search.Close | visCopt.py:170-171 | closing paints the expanded spot red unless it is start, leaves every other spot as it was and changes nothing else in the state |
| Search.Relax | visCopt.py:155-166 | one neighbour turn keeps both score maps keyed by the grid's spots and never changes the current spot's g |
| Search.RelaxAll | visCopt.py:154-166 | the whole neighbour loop keeps both score maps keyed by the grid's spots and never changes the current spot's g |
| SearchInvariants.InitInv | visCopt.py:129-138 | the initial state satisfies the loop invariant: queue = {start} = membership set, g[start] = 0, f = g + h, every other score infinite |
| SearchInvariants.BarrierSeen | visCopt.py:155 | during the run, the barrier test on the painted grid agrees with the barrier layout the run started from |
| SearchInvariants.RelaxStep | visCopt.py:154-166 | one neighbour turn keeps the mid-expansion invariant, lowers no score, either changes nothing or strictly drops the measure, and leaves a non-barrier neighbour with g at most g[current] + 1 |
| SearchInvariants.RelaxAllStep | visCopt.py:154-166 | the neighbour loop keeps the mid-expansion invariant and leaves every non-barrier neighbour with g at most g[current] + 1 |
| SearchInvariants.PopStep | visCopt.py:146-149 | the popped spot was queued and leaves the membership set; scores stay; unless it is end, the mid-expansion invariant holds |
| SearchInvariants.CloseGrid | visCopt.py:170-171 | closing keeps the barrier layout and start's colour, paints the expanded spot red unless it is start, and leaves every other colour |
| SearchInvariants.CloseStep | visCopt.py:170-171 | painting the expanded spot closed (start excepted) restores the loop invariant once its neighbours are relaxed |
| Path.Chain | visCopt.py:121-125 | the chain from m is empty exactly when m has no predecessor; otherwise it starts at m's predecessor and ends at a spot with none |
| Path.ChainLinks | visCopt.py:121-125 | each chain spot's predecessor is the next one, and g strictly falls along the chain |
| Path.ChainDistinct | visCopt.py:121-125 | the walk visits no spot twice and never returns to where it started, so it stops |
| Path.ChainIsRoute | visCopt.py:121-125 | read backwards, the spot followed by its chain is a route of barrier-free king moves |
| Path.NoRoute | visCopt.py:140-173 | a set closed under barrier-free moves that holds a but not b admits no route from a to b |
| Path.ReconstructPath | visCopt.py:121-125 | the walk marks exactly the predecessor chain, paints those spots purple and leaves every other colour and all neighbour lists alone |
| PathFinding.TreeIsPredTree | visCopt.py:158-160 | every predecessor link goes to an adjacent spot with smaller finite g, so the links are acyclic steps of the grid |
| PathFinding.ChainEndsAtStart | visCopt.py:121-125 | following the links back from any spot with finite g ends at start |
| PathFinding.ChainRoute | visCopt.py:149-152 | the chain back from any reached spot, read backwards, is a route from start to it |
| PathFinding.ClosedNoRoute | visCopt.py:173 | when every reached spot is relaxed and none is queued, no route leads from start to an unreached end |
| PathFinding.ExhaustedNoRoute | visCopt.py:140-173 | once the queue is empty the membership set is empty and no route from start to end exists |
| PathFinding.LoopRelaxesCur | visCopt.py:154-166 | after the neighbour loop every non-barrier neighbour of the current spot has g at most its g + 1 |
| PathFinding.Expansion | visCopt.py:154-171 | relaxing the popped spot's neighbours and closing it returns the state to the loop invariant |
| PathFinding.FoundColors | visCopt.py:149-152 | after the path is drawn and end repainted, end is dark blue, the path purple, and every other spot has its search colour |
| PathFinding.FoundReached | visCopt.py:149-152 | when end is popped, the marked chain back from end, read backwards, is a route from start to end |
| PathFinding.ExhaustedColors | visCopt.py:173 | when the queue runs dry every spot has the colour the search gave it |
| PathFinding.AStar | visCopt.py:128-173 | terminates; returns true exactly when end is popped and exactly when a route exists; on success the marked chain is such a route; on failure the queue is empty; every spot ends with its outcome colour |
| Editor.NewBoard | visCopt.py:249-251 | a fresh board has the requested size, every spot white with its own coordinates and no neighbours yet, no endpoints chosen |
| Editor.LeftClick | visCopt.py:417-428 | a left click changes at most the clicked spot, never drops a chosen endpoint, and logs at most that spot |
| Editor.RightClick | visCopt.py:430-438 | a right click turns the clicked spot white, changes no other spot and leaves the log alone |
| Editor.Clear | visCopt.py:409-412 | the C key gives a fresh grid of the same size, every spot white (barriers, open, closed and path spots all wiped) with no neighbours, no endpoints, and keeps the barrier log |
| Editor.NewBoardOk | visCopt.py:385-386 | a fresh board is consistent: no orange or dark-blue spot and no endpoints |
| Editor.LeftClickKeepsOk | visCopt.py:417-428 | after a left click the chosen start is the one orange spot and the chosen end the one dark-blue spot |
| Editor.RightClickKeepsOk | visCopt.py:430-438 | after a right click the chosen start is the one orange spot and the chosen end the one dark-blue spot |
| Editor.ClearKeepsOk | visCopt.py:409-412 | after the C key the board is consistent |
| Editor.EndpointsDistinct | visCopt.py:421-428 | start and end are never the same spot, and neither is a barrier |
| Editor.ClickOnEndpointIgnored | visCopt.py:421-428 | a left click on a chosen endpoint changes nothing, whether or not the other endpoint is chosen |
| Editor.LeftClickOrder | visCopt.py:420-428 | left clicks choose start first, then end, then lay barriers that are logged |
| Editor.SpaceAsWritten | visCopt.py:402-407 | as written, the space key launches the search with whatever endpoints are set |
| Editor.SpaceOnFreshBoardCrashes | visCopt.py:128-136 | space on a fresh board reaches the search with no start and crashes |
| Editor.SpaceKey | visCopt.py:402-407 | corrected: the key never crashes and launches exactly when both endpoints are chosen |
| Editor.SpaceKeyAgrees | visCopt.py:402-407 | the corrected key ignores exactly the presses that crash as written, and otherwise launches the same search |
| Editor.RoutesIgnoreNeighbours | visCopt.py:402-405 | whether a route exists depends on size and colours only, not on cached neighbour lists |
| Editor.RunSearch | visCopt.py:402-407 | space with both endpoints chosen recomputes neighbours and runs A*, which reports success exactly when a route exists on the edited board |

## Left out

- Drawing is left out. This covers `Spot.draw`, `draw_grid`, `draw`, `draw_info` and the `draw()` callbacks inside the search. They only render, and their effect on the model's state is nil.
- Event polling is left out. This covers the QUIT check inside the search loop (`pygame.quit`, `sys.exit`) and the outer event loop itself. Both are I/O. The model treats each click and key as a separate function on the board.
- The `started` flag is left out. After the first search it makes the main loop ignore every later event except QUIT, C included (`visCopt.py:396-399`). The model does not sequence events.
- The P key and `print_black_pixel_coordinates` are left out, because printing is I/O. The log it prints is modelled (`Cells.MakeBarrier`).
- The hardcoded barrier layout of `main` is left out. It is fixed data, and any barrier layout is admitted.
- The window geometry is not modelled: `get_clicked_pos`, pixel sizes and `width // rows`. Clicks take the spot's coordinates directly. `Grids.MakeGrid` requires `rows > 0`, because the source divides by rows. The grid size is a parameter rather than the constant 40.
- The heap internals of `PriorityQueue` are not modelled. The queue is a sequence with extraction of the least (f, count) key, which is what the heap returns.
- Float infinity is modelled as `Score.Inf`. Scores are naturals, because every step costs 1.
- `PathFinding.AStar`: the proof does not show that the path is the shortest. With this heuristic it need not be (`Heuristic.NotAdmissible`).
- Search.Relax: its own contract states only that both score maps stay keyed by the grid's spots and the current spot's g is kept. The preserved invariant, the drop of the measure and the bound g[nb] <= g[current] + 1 are stated by `SearchInvariants.RelaxStep`.
- Search.RelaxAll: its own contract states only that both score maps stay keyed by the grid's spots and the current spot's g is kept. The preserved invariant and the bound on every non-barrier neighbour are stated by `SearchInvariants.RelaxAllStep`.

## Findings

| source | as written | input that shows it | evidently intended | confidence | as-written member | corrected member |
|---|---|---|---|---|---|---|
| visCopt.py:402-407 | space calls `astar` with `start` and `end` whether or not they were chosen; `astar` then calls `start.get_pos()` (line 136) | press space before clicking start and end: `start` is `None`, and the call raises AttributeError and ends the program | the key is ignored until both endpoints are chosen: an uncaught AttributeError that ends the program is evidently not intended | not executed | Editor.SpaceAsWritten / Editor.SpaceOnFreshBoardCrashes | Editor.SpaceKey / Editor.SpaceKeyAgrees |

=== FILE: astar.dfy ===
/**
 The search itself: A* from start to end over a grid whose neighbour lists
 are up to date. The loop pops the least entry, stops when it is end, and
 otherwise relaxes the popped spot's neighbours and closes it.
 */
module PathFinding {
  import opened Cells
  import opened Neighbours
  import opened Grids
  import opened Frontier
  import opened Scores
  import opened Search
  import opened SearchInvariants
  import opened Path

  /** The predecessor links of a run form a tree whose links are steps
      between spots of the grid. */
  lemma TreeIsPredTree(input: Grid, start: Pos, s: SearchState)
    requires TreeOk(input, start, s) && s.g.Keys == CellSet(|input|)
    ensures PredTree(s.cameFrom, s.g) && StepsOk(input, s.cameFrom)
  {
    assert forall m :: m in s.cameFrom ==> Edge(input, start, s, m);
  }

  /** Following the links back from a spot with a finite g ends at start. */
  lemma ChainEndsAtStart(input: Grid, start: Pos, s: SearchState, m: Pos)
    requires TreeOk(input, start, s) && PredTree(s.cameFrom, s.g) && m in s.g && s.g[m].Fin?
    ensures var w := [m] + Chain(s.cameFrom, s.g, m); w[|w| - 1] == start
  {
    var c := Chain(s.cameFrom, s.g, m);
    ChainLinks(s.cameFrom, s.g, m);
    if |c| > 0 {
      assert c[|c| - 1] in s.g && s.g[c[|c| - 1]].Fin?;
    }
  }

  /** Following the links back from any spot with a finite g ends at start,
      and read backwards that walk is a route from start to the spot. */
  lemma ChainRoute(input: Grid, start: Pos, end: Pos, s: SearchState, m: Pos)
    requires Core(input, start, end, s) && m in s.g && s.g[m].Fin?
    ensures PredTree(s.cameFrom, s.g) && StepsOk(input, s.cameFrom)
    ensures var w := [m] + Chain(s.cameFrom, s.g, m);
            w[|w| - 1] == start && IsRoute(input, Reverse(w), start, m)
  {
    TreeIsPredTree(input, start, s);
    ChainEndsAtStart(input, start, s, m);
    ChainIsRoute(input, s.cameFrom, s.g, m, start);
  }

  /** When the spots with a finite g are all relaxed and none is queued,
      they hold start, not end, and every step out of them leads back into
      them, so no route leads from start to end. */
  lemma ClosedNoRoute(input: Grid, start: Pos, end: Pos, s: SearchState)
    requires RelaxedOk(input, s, {}) && s.openHash == {}
    requires start in s.g && s.g[start].Fin? && end in s.g && s.g[end] == Inf
    ensures forall w :: !IsRoute(input, w, start, end)
  {
    var reach := set p | p in s.g && s.g[p].Fin?;
    forall m, q | m in reach && Adjacent(m, q, |input|) && !IsBarrierAt(input, q)
      ensures q in reach
    {
      assert RelaxedAt(input, s, m);
    }
    forall w ensures !IsRoute(input, w, start, end) {
      NoRoute(input, reach, start, end, w);
    }
  }

  /** Once the queue is empty no route from start to end exists. */
  lemma ExhaustedNoRoute(input: Grid, start: Pos, end: Pos, s: SearchState)
    requires Inv(input, start, end, s) && |s.queue| == 0
    ensures s.openHash == {}
    ensures forall w :: !IsRoute(input, w, start, end)
  {
    assert s.openHash == {} by {
      assert QueuedCells(s.queue) == {};
    }
    ClosedNoRoute(input, start, end, s);
  }

  /** The neighbour list a spot holds during the run is the one computed
      for its position. */
  lemma NeighboursOf(input: Grid, s: SearchState, cur: Pos)
    requires Ready(input) && SameLayout(s.grid, input) && InBounds(cur, |input|)
    ensures InGrid(s.grid, cur)
    ensures SpotAt(s.grid, cur).neighbours == NeighbourPositions(cur.row, cur.col, |input|)
  {
  }

  /** After the neighbour loop, cur itself is relaxed. */
  lemma LoopRelaxesCur(input: Grid, g0: map<Pos, Score>, q0: seq<Entry>, cur: Pos, r: SearchState)
    requires InBounds(cur, |input|) && g0.Keys == CellSet(|input|)
    requires var nbs := NeighbourPositions(cur.row, cur.col, |input|);
             Tracked(input, g0, q0, cur, nbs, |nbs|, r)
    ensures cur in r.g && r.g[cur].Fin? && RelaxedAt(input, r, cur)
  {
    var nbs := NeighbourPositions(cur.row, cur.col, |input|);
    assert nbs[..|nbs|] == nbs;
  }

  /** Relaxing the popped spot's neighbour list and closing it brings the
      state from Mid back to Inv; either no score and no queue entry changed
      or the termination measure improved. */
  lemma Expansion(input: Grid, start: Pos, end: Pos, s: SearchState, cur: Pos)
    requires Ready(input) && Mid(input, start, end, s, cur)
    ensures InGrid(s.grid, cur)
    ensures var nbs := SpotAt(s.grid, cur).neighbours;
            && cur in s.g && s.g[cur].Fin? && (forall q :: q in nbs ==> RelaxPre(s, cur, q))
            && var r := RelaxAll(s, cur, nbs, end);
               && InGrid(r.grid, cur)
               && var t := Close(r, cur, start);
                  && Inv(input, start, end, t)
                  && ((t.g == s.g && t.queue == s.queue) || Improved(s.g, t.g))
  {
    NeighboursOf(input, s, cur);
    var nbs := SpotAt(s.grid, cur).neighbours;
    RelaxAllStep(input, start, end, s, cur, nbs);
    var r := RelaxAll(s, cur, nbs, end);
    LoopRelaxesCur(input, s.g, s.queue, cur, r);
    CloseStep(input, start, end, r, cur);
  }

  /** The colour every spot ends with: end repainted, the path purple, and
      otherwise whatever the search gave it (open, closed or untouched). */
  function Painted(input: Grid, start: Pos, end: Pos, found: bool, s: SearchState, marked: seq<Pos>, p: Pos): Color
    requires InGrid(input, p)
  {
    if found && p == end then DarkBlue
    else if p in marked then Purple
    else Expected(input, start, s, p)
  }

  /** After the path is drawn and end repainted, every spot has its
      Painted colour. */
  lemma FoundColors(input: Grid, start: Pos, end: Pos, s: SearchState, path: Grid, marked: seq<Pos>)
    requires SameLayout(s.grid, input) && InBounds(end, |input|) && ColorsOk(input, start, s, {end})
    requires SameLayout(path, s.grid)
    requires forall p :: InBounds(p, |s.grid|) ==>
               ColorAt(path, p) == (if p in marked then Purple else ColorAt(s.grid, p))
    ensures InGrid(path, end)
    ensures var out := WithSpot(path, end, SpotAt(path, end).MakeEnd());
            && SameLayout(out, input)
            && forall p :: InGrid(input, p) ==> InGrid(out, p) && ColorAt(out, p) == Painted(input, start, end, true, s, marked, p)
  {
    SameLayoutTrans(path, s.grid, input);
    RecolorKeepsLayout(path, input, end, SpotAt(path, end).MakeEnd());
  }

  /** Popping end after a search that kept Core: the chain back from end
      read backwards is a route from start. */
  lemma FoundReached(input: Grid, start: Pos, end: Pos, s: SearchState, marked: seq<Pos>)
    requires Core(input, start, end, s) && end in s.g && s.g[end].Fin?
    requires |s.expanded| > 0 && s.expanded[|s.expanded| - 1] == end
    requires PredTree(s.cameFrom, s.g) && marked == Chain(s.cameFrom, s.g, end)
    ensures Reached(input, start, end, s, marked)
  {
    ChainRoute(input, start, end, s, end);
  }

  /** When the queue runs dry every spot has its Painted colour. */
  lemma ExhaustedColors(input: Grid, start: Pos, end: Pos, s: SearchState)
    requires Inv(input, start, end, s)
    ensures SameLayout(s.grid, input)
    ensures forall p :: InGrid(input, p) ==> InGrid(s.grid, p) && ColorAt(s.grid, p) == Painted(input, start, end, false, s, [], p)
  {
  }

  /** The run stopped on popping end: the marked spots are the predecessor
      chain back from end, and end followed by them, read backwards, is a
      route from start to end. */
  ghost predicate Reached(input: Grid, start: Pos, end: Pos, s: SearchState, marked: seq<Pos>)
  {
    && |s.expanded| > 0 && s.expanded[|s.expanded| - 1] == end
    && PredTree(s.cameFrom, s.g)
    && marked == Chain(s.cameFrom, s.g, end)
    && IsRoute(input, Reverse([end] + marked), start, end)
  }

  /** A* from start to end. Returns whether end was reached, the repainted
      grid, the final search state and the spots marked as path. The grid
      must hold up-to-date neighbour lists, which the caller arranges by
      recomputing them first. Event polling and drawing are left out. */
  method AStar(grid: Grid, start: Pos, end: Pos)
    returns (found: bool, out: Grid, st: SearchState, marked: seq<Pos>)
    requires Ready(grid) && InBounds(start, |grid|) && InBounds(end, |grid|)
    ensures Core(grid, start, end, st) && SameLayout(out, grid)
    ensures found <==> end in st.expanded
    ensures found <==> exists w :: IsRoute(grid, w, start, end)
    ensures found ==> Reached(grid, start, end, st, marked)
    ensures !found ==> |st.queue| == 0 && st.openHash == {} && marked == []
    ensures forall p :: InGrid(grid, p) ==> InGrid(out, p) && ColorAt(out, p) == Painted(grid, start, end, found, st, marked, p)
  {
    var s := Init(grid, start, end);
    InitInv(grid, start, end);
    while |s.queue| > 0
      invariant Inv(grid, start, end, s)
      decreases InfSet(s.g), SumOver(s.g, s.g.Keys), |s.queue|
    {
      var cur := Front(s);
      PopStep(grid, start, end, s);
      var p := Pop(s);
      if cur == end {
        ChainRoute(grid, start, end, p, end);
        var path;
        path, marked := ReconstructPath(p.cameFrom, end, p.grid, p.g);
        FoundColors(grid, start, end, p, path, marked);
        FoundReached(grid, start, end, p, marked);
        out := WithSpot(path, end, SpotAt(path, end).MakeEnd());
        found, st := true, p;
        return;
      }
      Expansion(grid, start, end, p, cur);
      var nbs := SpotAt(p.grid, cur).neighbours;
      var r := RelaxAll(p, cur, nbs, end);
      s := Close(r, cur, start);
    }
    ExhaustedNoRoute(grid, start, end, s);
    ExhaustedColors(grid, start, end, s);
    found, out, st, marked := false, s.grid, s, [];
  }
}

=== FILE: cells.dfy ===
/**
 A single spot of the grid. Its colour is its only state: every state
 predicate compares the colour against one constant, and every mutator
 overwrites it.
 */
module Cells {

  /** A grid coordinate (row, column). */
  datatype Pos = Pos(row: nat, col: nat)

  /** The colour constants a spot can hold. */
  datatype Color = White | Red | Green | Black | Orange | DarkBlue | Purple

  /** A spot: its coordinates, its colour, its cached neighbour list (as
      coordinates) and the size of the grid it belongs to. Pixel geometry
      is not modelled. */
  datatype Spot = Spot(row: nat, col: nat, color: Color, neighbours: seq<Pos>, totalRows: nat)
  {
    function GetPos(): Pos { Pos(row, col) }

    predicate IsClosed() { color == Red }
    predicate IsOpen() { color == Green }
    predicate IsBarrier() { color == Black }
    predicate IsStart() { color == Orange }
    predicate IsEnd() { color == DarkBlue }

    /** How many of the five state predicates hold. */
    function StateCount(): nat
    {
      (if IsClosed() then 1 else 0) + (if IsOpen() then 1 else 0) + (if IsBarrier() then 1 else 0)
      + (if IsStart() then 1 else 0) + (if IsEnd() then 1 else 0)
    }

    /** The spot changed in its colour only. */
    predicate SameSpotAs(other: Spot)
    {
      row == other.row && col == other.col && neighbours == other.neighbours && totalRows == other.totalRows
    }

    function Reset(): (r: Spot)
      ensures r.SameSpotAs(this) && r.StateCount() == 0
    {
      this.(color := White)
    }

    function MakeClosed(): (r: Spot)
      ensures r.SameSpotAs(this) && r.IsClosed() && r.StateCount() == 1
    {
      this.(color := Red)
    }

    function MakeOpen(): (r: Spot)
      ensures r.SameSpotAs(this) && r.IsOpen() && r.StateCount() == 1
    {
      this.(color := Green)
    }

    function MakeStart(): (r: Spot)
      ensures r.SameSpotAs(this) && r.IsStart() && r.StateCount() == 1
    {
      this.(color := Orange)
    }

    function MakeEnd(): (r: Spot)
      ensures r.SameSpotAs(this) && r.IsEnd() && r.StateCount() == 1
    {
      this.(color := DarkBlue)
    }

    function MakePath(): (r: Spot)
      ensures r.SameSpotAs(this) && r.StateCount() == 0
    {
      this.(color := Purple)
    }
  }

  /** Marking a barrier also appends the spot's coordinates to the
      process-wide barrier log, on every call, duplicates included. */
  function MakeBarrier(s: Spot, log: seq<Pos>): (r: (Spot, seq<Pos>))
    ensures r.0.SameSpotAs(s) && r.0.IsBarrier() && r.0.StateCount() == 1
    ensures |r.1| == |log| + 1 && r.1[..|log|] == log && r.1[|log|] == s.GetPos()
  {
    (s.(color := Black), log + [s.GetPos()])
  }

  /** Because the state is a single colour, at most one state predicate holds. */
  lemma AtMostOneState(s: Spot)
    ensures s.StateCount() <= 1
    ensures s.StateCount() == 1 <==> s.color in {Red, Green, Black, Orange, DarkBlue}
  {
  }

  /** Marking the same spot twice logs it twice: the log is not deduplicated. */
  lemma BarrierTwiceLogsTwice(s: Spot, log: seq<Pos>)
    ensures var (s1, log1) := MakeBarrier(s, log);
            var (s2, log2) := MakeBarrier(s1, log1);
            s2 == s1 && log2 == log + [s.GetPos(), s.GetPos()]
  {
  }
}

=== FILE: editor.dfy ===
/**
 The editing rules of the main loop: where a left click puts start, end or a
 barrier, what a right click clears, what the C key rebuilds, and how the
 space key launches a search.
 */
module Editor {
  import opened Cells
  import opened Neighbours
  import opened Grids
  import opened Search
  import opened Path
  import opened PathFinding

  datatype Option<T> = None | Some(value: T)

  /** What the main loop keeps between events: the grid, the chosen start
      and end spots (if any) and the barrier log. */
  datatype Board = Board(grid: Grid, start: Option<Pos>, end: Option<Pos>, log: seq<Pos>)

  /** The board the program starts from: a fresh grid, nothing chosen. */
  function NewBoard(rows: nat, log: seq<Pos>): (b: Board)
    requires rows > 0
    ensures |b.grid| == rows && WellFormed(b.grid)
    ensures forall p :: InBounds(p, rows) ==>
              SpotAt(b.grid, p).color == White && SpotAt(b.grid, p).neighbours == []
    ensures b.start.None? && b.end.None? && b.log == log
  {
    Board(MakeGrid(rows), None, None, log)
  }

  /** The chosen start, when there is one, is the one orange spot; the
      chosen end, when there is one, is the one dark-blue spot. */
  ghost predicate BoardOk(b: Board)
  {
    && WellFormed(b.grid)
    && (b.start.Some? ==> InBounds(b.start.value, |b.grid|))
    && (b.end.Some? ==> InBounds(b.end.value, |b.grid|))
    && (forall q :: InBounds(q, |b.grid|) ==> (ColorAt(b.grid, q) == Orange <==> b.start == Some(q)))
    && (forall q :: InBounds(q, |b.grid|) ==> (ColorAt(b.grid, q) == DarkBlue <==> b.end == Some(q)))
  }

  /** Left click on p: start if none is chosen and p is not end; else end
      if none is chosen and p is not start; else a barrier unless p is
      start or end. */
  function LeftClick(b: Board, p: Pos): (r: Board)
    requires WellFormed(b.grid) && InBounds(p, |b.grid|)
    ensures WellFormed(r.grid) && |r.grid| == |b.grid|
    ensures forall q :: InBounds(q, |b.grid|) && q != p ==> ColorAt(r.grid, q) == ColorAt(b.grid, q)
    ensures b.start.Some? ==> r.start == b.start
    ensures b.end.Some? ==> r.end == b.end
    ensures r.log == b.log || r.log == b.log + [p]
  {
    var spot := SpotAt(b.grid, p);
    if b.start.None? && b.end != Some(p) then
      b.(grid := WithSpot(b.grid, p, spot.MakeStart()), start := Some(p))
    else if b.end.None? && b.start != Some(p) then
      b.(grid := WithSpot(b.grid, p, spot.MakeEnd()), end := Some(p))
    else if b.end != Some(p) && b.start != Some(p) then
      var (s, log) := MakeBarrier(spot, b.log);
      b.(grid := WithSpot(b.grid, p, s), log := log)
    else
      b
  }

  /** Right click on p: the spot is reset, and if it was start or end that
      choice is dropped. */
  function RightClick(b: Board, p: Pos): (r: Board)
    requires WellFormed(b.grid) && InBounds(p, |b.grid|)
    ensures WellFormed(r.grid) && |r.grid| == |b.grid| && r.log == b.log
    ensures ColorAt(r.grid, p) == White
    ensures forall q :: InBounds(q, |b.grid|) && q != p ==> ColorAt(r.grid, q) == ColorAt(b.grid, q)
  {
    var g := WithSpot(b.grid, p, SpotAt(b.grid, p).Reset());
    if b.start == Some(p) then b.(grid := g, start := None)
    else if b.end == Some(p) then b.(grid := g, end := None)
    else b.(grid := g)
  }

  /** The C key: a fresh grid of the same size and no choices; the barrier
      log is not cleared. */
  function Clear(b: Board): (r: Board)
    requires |b.grid| > 0
    ensures |r.grid| == |b.grid| && WellFormed(r.grid)
    ensures forall p :: InBounds(p, |b.grid|) ==>
              SpotAt(r.grid, p).color == White && SpotAt(r.grid, p).neighbours == []
    ensures r.start.None? && r.end.None? && r.log == b.log
  {
    NewBoard(|b.grid|, b.log)
  }

  /** The board starts out, and stays under every edit, BoardOk. */
  lemma NewBoardOk(rows: nat, log: seq<Pos>)
    requires rows > 0
    ensures BoardOk(NewBoard(rows, log))
  {
  }

  lemma LeftClickKeepsOk(b: Board, p: Pos)
    requires BoardOk(b) && InBounds(p, |b.grid|)
    ensures BoardOk(LeftClick(b, p))
  {
  }

  lemma RightClickKeepsOk(b: Board, p: Pos)
    requires BoardOk(b) && InBounds(p, |b.grid|)
    ensures BoardOk(RightClick(b, p))
  {
  }

  lemma ClearKeepsOk(b: Board)
    requires BoardOk(b) && |b.grid| > 0
    ensures BoardOk(Clear(b))
  {
  }

  /** On a BoardOk board, start and end are never the same spot, and
      neither is a barrier. */
  lemma EndpointsDistinct(b: Board)
    requires BoardOk(b)
    ensures b.start.Some? && b.end.Some? ==> b.start != b.end
    ensures b.start.Some? ==> !IsBarrierAt(b.grid, b.start.value)
    ensures b.end.Some? ==> !IsBarrierAt(b.grid, b.end.value)
  {
  }

  /** A left click on the chosen start or end changes nothing: it never
      becomes a barrier. */
  lemma ClickOnEndpointIgnored(b: Board, p: Pos)
    requires BoardOk(b) && InBounds(p, |b.grid|)
    requires b.start == Some(p) || b.end == Some(p)
    ensures LeftClick(b, p) == b
  {
  }

  /** Left clicks fill start first, then end, then lay barriers. */
  lemma LeftClickOrder(b: Board, p: Pos)
    requires BoardOk(b) && InBounds(p, |b.grid|)
    ensures var r := LeftClick(b, p);
            && (b.start.None? && b.end != Some(p) ==> r.start == Some(p) && r.end == b.end)
            && (b.start.Some? && b.end.None? && b.start != Some(p) ==> r.end == Some(p))
            && (b.start.Some? && b.end.Some? && b.start != Some(p) && b.end != Some(p) ==>
                  IsBarrierAt(r.grid, p) && r.log == b.log + [p])
  {
  }

  /** What the space key leads to. */
  datatype Launch = Crashed | Ignored | Go(start: Pos, end: Pos)

  /** The space key as written: the search is launched whatever was chosen,
      and it fails on its first use of a missing start or end. */
  function SpaceAsWritten(b: Board): (r: Launch)
    ensures r.Go? ==> Some(r.start) == b.start && Some(r.end) == b.end
  {
    if b.start.None? || b.end.None? then Crashed else Go(b.start.value, b.end.value)
  }

  /** Pressing space on a fresh board, before choosing start and end,
      crashes the program. */
  lemma SpaceOnFreshBoardCrashes(rows: nat, log: seq<Pos>)
    requires rows > 0
    ensures SpaceAsWritten(NewBoard(rows, log)) == Crashed
  {
  }

  /** The space key as evidently intended: ignored until both start and
      end are chosen. */
  function SpaceKey(b: Board): (r: Launch)
    ensures !r.Crashed?
    ensures r.Go? <==> b.start.Some? && b.end.Some?
    ensures r.Go? ==> Some(r.start) == b.start && Some(r.end) == b.end
  {
    if b.start.None? || b.end.None? then Ignored else Go(b.start.value, b.end.value)
  }

  /** The corrected key launches exactly what the written one launches
      whenever the written one does not crash. */
  lemma SpaceKeyAgrees(b: Board)
    ensures SpaceAsWritten(b).Crashed? <==> SpaceKey(b).Ignored?
    ensures !SpaceAsWritten(b).Crashed? ==> SpaceKey(b) == SpaceAsWritten(b)
  {
  }

  /** Whether a route exists depends on the colours and the size only, so
      recomputing neighbour lists does not change it. */
  lemma RoutesIgnoreNeighbours(a: Grid, c: Grid, s: Pos, e: Pos)
    requires |a| == |c| && WellFormed(a) && WellFormed(c)
    requires forall q :: InBounds(q, |a|) ==> ColorAt(a, q) == ColorAt(c, q)
    ensures (exists w :: IsRoute(a, w, s, e)) <==> (exists w :: IsRoute(c, w, s, e))
  {
    forall q ensures IsBarrierAt(a, q) <==> IsBarrierAt(c, q) {
      if InBounds(q, |a|) {
        assert InGrid(a, q) && InGrid(c, q);
      }
    }
    forall w | IsRoute(a, w, s, e) ensures IsRoute(c, w, s, e) {
      assert forall i, j :: 0 <= i < j < |w| && j == i + 1 ==> Step(a, w[i], w[j]) == Step(c, w[i], w[j]);
    }
    forall w | IsRoute(c, w, s, e) ensures IsRoute(a, w, s, e) {
      assert forall i, j :: 0 <= i < j < |w| && j == i + 1 ==> Step(a, w[i], w[j]) == Step(c, w[i], w[j]);
    }
  }

  /** The space key on a board with both ends chosen: every spot
      recomputes its neighbours, then A* runs. The search finds end exactly
      when a route from start to end avoids the barriers. */
  method RunSearch(b: Board) returns (found: bool, out: Grid)
    requires BoardOk(b) && SpaceKey(b).Go?
    ensures |out| == |b.grid|
    ensures found <==> exists w :: IsRoute(b.grid, w, b.start.value, b.end.value)
  {
    var ready := UpdateAllNeighbours(b.grid);
    RoutesIgnoreNeighbours(ready, b.grid, b.start.value, b.end.value);
    var st, marked;
    found, out, st, marked := AStar(ready, b.start.value, b.end.value);
  }
}

=== FILE: frontier.dfy ===
/**
 The open set's priority queue, kept as a sequence of entries in insertion
 order. Extraction takes the entry with the least (f, count) key; counts
 are unique, so the spot itself is never compared.
 */
module Frontier {
  import opened Cells

  /** A queued tuple (f score at insertion, insertion count, spot). */
  datatype Entry = Entry(f: nat, count: nat, cell: Pos)

  /** Lexicographic order on the (f, count) key. */
  predicate KeyLe(a: Entry, b: Entry)
  {
    a.f < b.f || (a.f == b.f && a.count <= b.count)
  }

  /** Index of an entry with the least key. */
  function MinIndex(q: seq<Entry>): (i: nat)
    requires |q| > 0
    ensures i < |q|
    ensures forall j :: 0 <= j < |q| ==> KeyLe(q[i], q[j])
  {
    if |q| == 1 then 0
    else
      var k := MinIndex(q[1..]);
      if KeyLe(q[0], q[1 + k]) then 0 else 1 + k
  }

  /** The queue without its i-th entry. */
  function RemoveAt(q: seq<Entry>, i: nat): (r: seq<Entry>)
    requires i < |q|
  {
    q[..i] + q[i + 1..]
  }

  /** Extract-min: the least entry and the queue that remains. */
  function PopMin(q: seq<Entry>): (r: (Entry, seq<Entry>))
    requires |q| > 0
    ensures r.0 in q && forall e :: e in q ==> KeyLe(r.0, e)
    ensures multiset(r.1) + multiset{r.0} == multiset(q)
  {
    var i := MinIndex(q);
    assert q == q[..i] + [q[i]] + q[i + 1..];
    (q[i], RemoveAt(q, i))
  }

  /** The spots that have an entry. */
  function QueuedCells(q: seq<Entry>): set<Pos>
  {
    set e | e in q :: e.cell
  }

  /** No spot has two entries. */
  predicate DistinctCells(q: seq<Entry>)
  {
    forall i, j :: 0 <= i < j < |q| ==> q[i].cell != q[j].cell
  }

  /** Insertion counts strictly increase along the queue. */
  predicate CountsIncreasing(q: seq<Entry>)
  {
    forall i, j :: 0 <= i < j < |q| ==> q[i].count < q[j].count
  }

  /** Removing an entry removes exactly its spot and keeps the queue's shape. */
  lemma RemoveAtKeepsShape(q: seq<Entry>, i: nat)
    requires i < |q| && DistinctCells(q) && CountsIncreasing(q)
    ensures QueuedCells(RemoveAt(q, i)) == QueuedCells(q) - {q[i].cell}
    ensures DistinctCells(RemoveAt(q, i)) && CountsIncreasing(RemoveAt(q, i))
    ensures forall e :: e in RemoveAt(q, i) ==> e in q
  {
    RemoveAtIndex(q, i);
    RemoveAtOrder(q, i);
    RemoveAtMembers(q, i);
    RemoveAtCells(q, i);
  }

  /** The index in q of the k-th entry once the i-th is removed. */
  function Skip(k: nat, i: nat): nat
  {
    if k < i then k else k + 1
  }

  lemma RemoveAtIndex(q: seq<Entry>, i: nat)
    requires i < |q|
    ensures |RemoveAt(q, i)| == |q| - 1
    ensures forall k :: 0 <= k < |RemoveAt(q, i)| ==> Skip(k, i) < |q| && RemoveAt(q, i)[k] == q[Skip(k, i)]
  {
  }

  lemma RemoveAtOrder(q: seq<Entry>, i: nat)
    requires i < |q| && DistinctCells(q) && CountsIncreasing(q)
    ensures DistinctCells(RemoveAt(q, i)) && CountsIncreasing(RemoveAt(q, i))
  {
    var r := RemoveAt(q, i);
    RemoveAtIndex(q, i);
    forall a, b | 0 <= a < b < |r| ensures r[a].cell != r[b].cell && r[a].count < r[b].count {
      assert r[a] == q[Skip(a, i)] && r[b] == q[Skip(b, i)];
    }
  }

  lemma RemoveAtMembers(q: seq<Entry>, i: nat)
    requires i < |q| && DistinctCells(q)
    ensures forall e :: e in RemoveAt(q, i) ==> e in q && e.cell != q[i].cell
  {
    var r := RemoveAt(q, i);
    RemoveAtIndex(q, i);
    forall e | e in r ensures e in q && e.cell != q[i].cell {
      var k :| 0 <= k < |r| && r[k] == e;
      assert e == q[Skip(k, i)];
    }
  }

  lemma RemoveAtCells(q: seq<Entry>, i: nat)
    requires i < |q| && DistinctCells(q)
    ensures QueuedCells(RemoveAt(q, i)) == QueuedCells(q) - {q[i].cell}
  {
    var r := RemoveAt(q, i);
    RemoveAtIndex(q, i);
    RemoveAtMembers(q, i);
    forall c | c in QueuedCells(q) - {q[i].cell} ensures c in QueuedCells(r) {
      var k :| 0 <= k < |q| && q[k].cell == c;
      assert k != i;
      if k < i { assert r[k] == q[k]; } else { assert r[k - 1] == q[k]; }
    }
  }

  /** Appending an entry for a new spot with a fresh, larger count keeps the
      queue's shape. */
  lemma PushKeepsShape(q: seq<Entry>, e: Entry)
    requires DistinctCells(q) && CountsIncreasing(q)
    requires e.cell !in QueuedCells(q)
    requires forall x :: x in q ==> x.count < e.count
    ensures QueuedCells(q + [e]) == QueuedCells(q) + {e.cell}
    ensures DistinctCells(q + [e]) && CountsIncreasing(q + [e])
  {
    var r := q + [e];
    forall i, j | 0 <= i < j < |r| ensures r[i].cell != r[j].cell && r[i].count < r[j].count {
      if j == |q| {
        assert r[i] in q;
      }
    }
  }

  /** With unique counts the least entry is unique, so extraction is
      deterministic whatever the spots compare to. */
  lemma MinUnique(q: seq<Entry>, i: nat)
    requires CountsIncreasing(q) && i < |q|
    requires forall j :: 0 <= j < |q| ==> KeyLe(q[i], q[j])
    ensures i == MinIndex(q)
  {
    var m := MinIndex(q);
    assert KeyLe(q[i], q[m]) && KeyLe(q[m], q[i]);
  }

  /** Entries with equal f leave in insertion order: the later one is not
      extracted while the earlier one is queued. */
  lemma FifoAmongEqualKeys(q: seq<Entry>, i: nat, j: nat)
    requires CountsIncreasing(q) && i < j < |q| && q[i].f == q[j].f
    ensures MinIndex(q) != j
  {
  }
}

=== FILE: grids.dfy ===
/**
 The square grid of spots: construction, cell access, and the pass that
 recomputes every spot's neighbour list.
 */
module Grids {
  import opened Cells
  import opened Neighbours

  /** Row-major matrix of spots. */
  type Grid = seq<seq<Spot>>

  /** Square, and every spot knows its own coordinates and the grid size. */
  ghost predicate WellFormed(grid: Grid)
  {
    forall i :: 0 <= i < |grid| ==>
      |grid[i]| == |grid|
      && forall j :: 0 <= j < |grid| ==>
           grid[i][j].row == i && grid[i][j].col == j && grid[i][j].totalRows == |grid|
  }

  /** The coordinate indexes a spot of the grid. */
  predicate InGrid(grid: Grid, p: Pos)
  {
    p.row < |grid| && p.col < |grid[p.row]|
  }

  function SpotAt(grid: Grid, p: Pos): Spot
    requires InGrid(grid, p)
  {
    grid[p.row][p.col]
  }

  function ColorAt(grid: Grid, p: Pos): Color
    requires InGrid(grid, p)
  {
    grid[p.row][p.col].color
  }

  /** The spot at p is a barrier; false off the grid. */
  predicate IsBarrierAt(grid: Grid, p: Pos)
  {
    InGrid(grid, p) && SpotAt(grid, p).IsBarrier()
  }

  /** Replaces the spot at p. */
  function WithSpot(grid: Grid, p: Pos, s: Spot): (r: Grid)
    requires InGrid(grid, p)
    ensures |r| == |grid| && InGrid(r, p) && SpotAt(r, p) == s
    ensures forall q :: InGrid(grid, q) ==> InGrid(r, q) && (q != p ==> SpotAt(r, q) == SpotAt(grid, q))
  {
    grid[p.row := grid[p.row][p.col := s]]
  }

  /** Recolouring a spot keeps a grid's layout. */
  lemma RecolorKeepsLayout(grid: Grid, input: Grid, p: Pos, s: Spot)
    requires SameLayout(grid, input) && InBounds(p, |grid|) && s.SameSpotAs(SpotAt(grid, p))
    ensures SameLayout(WithSpot(grid, p, s), input)
  {
    var r := WithSpot(grid, p, s);
    assert forall q :: InBounds(q, |grid|) && q != p ==> SpotAt(r, q) == SpotAt(grid, q);
    assert WellFormed(r) by {
      forall i | 0 <= i < |r| ensures |r[i]| == |r| {
        assert InGrid(grid, Pos(i, 0)) || |grid| == 0;
      }
      forall i, j | 0 <= i < |r| && 0 <= j < |r|
        ensures r[i][j].row == i && r[i][j].col == j && r[i][j].totalRows == |r|
      {
        assert SpotAt(r, Pos(i, j)) == r[i][j];
      }
    }
  }

  /** Two well-formed grids of the same size whose spots differ at most in colour. */
  ghost predicate SameLayout(a: Grid, b: Grid)
  {
    WellFormed(a) && WellFormed(b) && |a| == |b|
    && forall p {:trigger SpotAt(a, p)} :: InBounds(p, |a|) ==> SpotAt(a, p).neighbours == SpotAt(b, p).neighbours
  }

  /** Same layout is transitive. */
  lemma SameLayoutTrans(a: Grid, b: Grid, c: Grid)
    requires SameLayout(a, b) && SameLayout(b, c)
    ensures SameLayout(a, c)
  {
  }

  /** A fresh rows-by-rows grid of white spots with empty neighbour lists.
      The source divides the window width by rows, so rows must be positive. */
  function MakeGrid(rows: nat): (grid: Grid)
    requires rows > 0
    ensures |grid| == rows && WellFormed(grid)
    ensures forall p :: InBounds(p, rows) ==>
              SpotAt(grid, p).color == White && SpotAt(grid, p).neighbours == []
  {
    seq(rows, (i: int) requires 0 <= i < rows =>
      seq(rows, (j: int) requires 0 <= j < rows => Spot(i, j, White, [], rows)))
  }

  /** Recomputes one spot's neighbour list from the grid. The list holds the
      grid's spots; on a well-formed grid those are identified by the
      coordinates they report. */
  function UpdateNeighbours(spot: Spot, grid: Grid): (r: Spot)
    requires WellFormed(grid)
    requires spot.row < |grid| && spot.col < |grid| && spot.totalRows == |grid|
    ensures r == spot.(neighbours := NeighbourPositions(spot.row, spot.col, |grid|))
  {
    spot.(neighbours := PositionsOf(grid, NeighbourPositions(spot.row, spot.col, spot.totalRows)))
  }

  /** The positions the spots at ps report: on a well-formed grid, ps itself. */
  function PositionsOf(grid: Grid, ps: seq<Pos>): (r: seq<Pos>)
    requires WellFormed(grid) && forall q :: q in ps ==> InBounds(q, |grid|)
    ensures r == ps
  {
    if ps == [] then []
    else
      var p := ps[0];
      assert p in ps;
      assert InBounds(p, |grid|) && |grid[p.row]| == |grid|;
      [SpotAt(grid, ps[0]).GetPos()] + PositionsOf(grid, ps[1..])
  }

  /** Well-formed, and every spot holds its up-to-date neighbour list. */
  ghost predicate Ready(grid: Grid)
  {
    WellFormed(grid)
    && forall p {:trigger SpotAt(grid, p)} :: InBounds(p, |grid|) ==>
         SpotAt(grid, p).neighbours == NeighbourPositions(p.row, p.col, |grid|)
  }

  /** The pass run before each search: every spot recomputes its neighbours. */
  function UpdateAllNeighbours(grid: Grid): (r: Grid)
    requires WellFormed(grid)
    ensures Ready(r) && |r| == |grid|
    ensures forall p :: InBounds(p, |grid|) ==> ColorAt(r, p) == ColorAt(grid, p)
  {
    seq(|grid|, (i: int) requires 0 <= i < |grid| => UpdateRow(grid, i))
  }

  /** Row i after every spot in it recomputed its neighbours. */
  function UpdateRow(grid: Grid, i: nat): (r: seq<Spot>)
    requires WellFormed(grid) && i < |grid|
    ensures |r| == |grid|
    ensures forall j :: 0 <= j < |grid| ==>
              r[j] == grid[i][j].(neighbours := NeighbourPositions(i, j, |grid|))
  {
    seq(|grid|, (j: int) requires 0 <= j < |grid| => UpdateNeighbours(grid[i][j], grid))
  }

  /** Recomputing twice in a row gives the same grid as recomputing once. */
  lemma UpdateAllIdempotent(grid: Grid)
    requires WellFormed(grid)
    ensures UpdateAllNeighbours(UpdateAllNeighbours(grid)) == UpdateAllNeighbours(grid)
  {
    var once := UpdateAllNeighbours(grid);
    var twice := UpdateAllNeighbours(once);
    assert |twice| == |once|;
    forall i | 0 <= i < |once|
      ensures twice[i] == once[i]
    {
      assert |twice[i]| == |once[i]|;
      forall j | 0 <= j < |once|
        ensures twice[i][j] == once[i][j]
      {
        assert InBounds(Pos(i, j), |grid|);
      }
    }
  }
}

=== FILE: heuristic.dfy ===
/**
 The search heuristic: Manhattan distance between two coordinates, and
 the Chebyshev distance that measures the true cost of a move on the
 8-connected, unit-cost grid.
 */
module Heuristic {
  import opened Cells

  /** Absolute difference of two naturals. */
  function Dist(a: nat, b: nat): nat
  {
    if a < b then b - a else a - b
  }

  /** Manhattan distance |r1 - r2| + |c1 - c2|. */
  function H(p1: Pos, p2: Pos): (r: nat)
    ensures r == 0 <==> p1 == p2
  {
    Dist(p1.row, p2.row) + Dist(p1.col, p2.col)
  }

  /** Chebyshev distance: the number of unit moves (orthogonal or diagonal)
      between two coordinates on an unobstructed grid. */
  function Chebyshev(p: Pos, q: Pos): nat
  {
    var dr := Dist(p.row, q.row);
    var dc := Dist(p.col, q.col);
    if dr < dc then dc else dr
  }

  /** The heuristic is symmetric. */
  lemma HSymmetric(p1: Pos, p2: Pos)
    ensures H(p1, p2) == H(p2, p1)
  {
  }

  /** The heuristic obeys the triangle inequality. */
  lemma TriangleInequality(a: Pos, b: Pos, c: Pos)
    ensures H(a, c) <= H(a, b) + H(b, c)
  {
  }

  /** Manhattan distance lies between one and two times the Chebyshev
      distance: with unit-cost diagonals it can overestimate the remaining
      cost by a factor of up to two. */
  lemma HeuristicVersusMoves(p: Pos, q: Pos)
    ensures Chebyshev(p, q) <= H(p, q) <= 2 * Chebyshev(p, q)
  {
  }

  /** A single diagonal step is estimated at cost 2, so the heuristic is not
      a lower bound on the remaining cost. */
  lemma NotAdmissible()
    ensures Chebyshev(Pos(0, 0), Pos(1, 1)) == 1 && H(Pos(0, 0), Pos(1, 1)) == 2
  {
  }
}

=== FILE: neighbours.dfy ===
/**
 Coordinates of the square grid and the 8-way neighbour list a spot
 computes for itself.
 */
module Neighbours {
  import opened Cells
  import opened Heuristic

  /** The coordinate lies on an n-by-n grid. */
  predicate InBounds(p: Pos, n: nat)
  {
    p.row < n && p.col < n
  }

  /** Every coordinate of an n-by-n grid. */
  function CellSet(n: nat): (s: set<Pos>)
    ensures forall p :: p in s <==> InBounds(p, n)
  {
    var s := set r: nat, c: nat | r < n && c < n :: Pos(r, c);
    assert forall p :: InBounds(p, n) ==> p in s by {
      forall p | InBounds(p, n) ensures p in s {
        assert p == Pos(p.row, p.col);
      }
    }
    s
  }

  /** q is one king's move away from p and lies on the grid. */
  predicate Adjacent(p: Pos, q: Pos, n: nat)
  {
    InBounds(q, n) && Chebyshev(p, q) == 1
  }

  /** The number of grid rows (or columns) within one of index i: 1, 2 or 3. */
  function Span(i: nat, n: nat): nat
  {
    (if i > 0 then 1 else 0) + 1 + (if i + 1 < n then 1 else 0)
  }

  /** The neighbour list in the order the spot builds it: down, down-right,
      down-left, up, up-right, up-left, right, left, each only when it lies
      on the grid. Barriers are not filtered out. */
  function NeighbourPositions(row: nat, col: nat, n: nat): (r: seq<Pos>)
    requires row < n && col < n
    ensures forall q :: q in r <==> Adjacent(Pos(row, col), q, n)
    ensures Distinct(r)
  {
    var a, b, c := RowBelow(row, col, n), RowAbove(row, col, n), SameRow(row, col, n);
    DistinctConcat(a, b);
    DistinctConcat(a + b, c);
    a + b + c
  }

  /** No position occurs twice. */
  predicate Distinct(s: seq<Pos>)
  {
    forall i, j :: 0 <= i < j < |s| ==> s[i] != s[j]
  }

  /** Two lists without repeats and without common positions join into one
      without repeats. */
  lemma DistinctConcat(a: seq<Pos>, b: seq<Pos>)
    requires Distinct(a) && Distinct(b) && forall x :: x in a ==> x !in b
    ensures Distinct(a + b)
  {
    forall i, j | 0 <= i < j < |a + b| ensures (a + b)[i] != (a + b)[j] {
      if i < |a| && j >= |a| {
        assert (a + b)[i] in a && (a + b)[j] in b;
      }
    }
  }

  /** The part of the list in the row below: down, down-right, down-left. */
  function RowBelow(row: nat, col: nat, n: nat): (r: seq<Pos>)
    requires row < n && col < n
    ensures forall q :: q in r <==> Adjacent(Pos(row, col), q, n) && q.row == row + 1
    ensures Distinct(r) && |r| == (if row + 1 < n then Span(col, n) else 0)
  {
    BelowCells(row, col, n)
  }

  /** The part of the list in the row above: up, up-right, up-left. */
  function RowAbove(row: nat, col: nat, n: nat): (r: seq<Pos>)
    requires row < n && col < n
    ensures forall q :: q in r <==> Adjacent(Pos(row, col), q, n) && q.row + 1 == row
    ensures Distinct(r) && |r| == (if row > 0 then Span(col, n) else 0)
  {
    AboveCells(row, col, n)
  }

  /** The part of the list in the spot's own row: right, left. */
  function SameRow(row: nat, col: nat, n: nat): (r: seq<Pos>)
    requires row < n && col < n
    ensures forall q :: q in r <==> Adjacent(Pos(row, col), q, n) && q.row == row
    ensures Distinct(r) && |r| == Span(col, n) - 1
  {
    SameCells(row, col, n)
  }

  /** The block bodies, kept free of contracts so that order proofs can
      unfold them without pulling in the membership facts. */
  function BelowCells(row: nat, col: nat, n: nat): seq<Pos>
  {
    if row + 1 < n then
      [Pos(row + 1, col)]
      + (if col + 1 < n then [Pos(row + 1, col + 1)] else [])
      + (if col > 0 then [Pos(row + 1, col - 1)] else [])
    else []
  }

  function AboveCells(row: nat, col: nat, n: nat): seq<Pos>
  {
    if row > 0 then
      [Pos(row - 1, col)]
      + (if col + 1 < n then [Pos(row - 1, col + 1)] else [])
      + (if col > 0 then [Pos(row - 1, col - 1)] else [])
    else []
  }

  function SameCells(row: nat, col: nat, n: nat): seq<Pos>
  {
    (if col + 1 < n then [Pos(row, col + 1)] else [])
    + (if col > 0 then [Pos(row, col - 1)] else [])
  }

  /** The eight king moves from (row, col) in the order the spot tries them:
      down, down-right, down-left, up, up-right, up-left, right, left. The
      coordinates may fall off the grid. */
  function KingMoves(row: int, col: int): seq<(int, int)>
  {
    [(row + 1, col), (row + 1, col + 1), (row + 1, col - 1),
     (row - 1, col), (row - 1, col + 1), (row - 1, col - 1),
     (row, col + 1), (row, col - 1)]
  }

  /** The coordinates of cs that lie on an n-by-n grid, in order. */
  function OnGrid(cs: seq<(int, int)>, n: nat): seq<Pos>
  {
    if cs == [] then []
    else
      var (r, c) := cs[0];
      (if 0 <= r < n && 0 <= c < n then [Pos(r, c)] else []) + OnGrid(cs[1..], n)
  }

  /** Filtering a concatenation filters each part. */
  lemma {:induction false} OnGridConcat(a: seq<(int, int)>, b: seq<(int, int)>, n: nat)
    ensures OnGrid(a + b, n) == OnGrid(a, n) + OnGrid(b, n)
  {
    if a == [] {
      assert a + b == b;
    } else {
      assert (a + b)[0] == a[0] && (a + b)[1..] == a[1..] + b;
      OnGridConcat(a[1..], b, n);
    }
  }

  /** A single coordinate survives the filter exactly when it is on the grid. */
  lemma OnGridOne(x: (int, int), n: nat)
    ensures OnGrid([x], n) == if 0 <= x.0 < n && 0 <= x.1 < n then [Pos(x.0, x.1)] else []
  {
    assert [x][1..] == [];
  }

  /** Filtering three coordinates keeps those on the grid, in order. */
  lemma OnGridThree(x: (int, int), y: (int, int), z: (int, int), n: nat)
    ensures OnGrid([x, y, z], n) == OnGrid([x], n) + OnGrid([y], n) + OnGrid([z], n)
  {
    OnGridConcat([x], [y, z], n);
    OnGridConcat([y], [z], n);
    assert [x] + [y, z] == [x, y, z] && [y] + [z] == [y, z];
  }

  /** Down, down-right, down-left filtered to the grid is the row-below block. */
  lemma BelowOrder(row: nat, col: nat, n: nat)
    requires row < n && col < n
    ensures OnGrid(KingMoves(row, col)[..3], n) == BelowCells(row, col, n)
  {
    var m := KingMoves(row, col);
    assert m[..3] == [(row + 1, col), (row + 1, col + 1), (row + 1, col - 1)];
    OnGridThree(m[0], m[1], m[2], n);
    OnGridOne(m[0], n);
    OnGridOne(m[1], n);
    OnGridOne(m[2], n);
  }

  /** Up, up-right, up-left filtered to the grid is the row-above block. */
  lemma AboveOrder(row: nat, col: nat, n: nat)
    requires row < n && col < n
    ensures OnGrid(KingMoves(row, col)[3..6], n) == AboveCells(row, col, n)
  {
    var m := KingMoves(row, col);
    assert m[3..6] == [(row - 1, col), (row - 1, col + 1), (row - 1, col - 1)];
    OnGridThree(m[3], m[4], m[5], n);
    OnGridOne(m[3], n);
    OnGridOne(m[4], n);
    OnGridOne(m[5], n);
  }

  /** Right, left filtered to the grid is the same-row block. */
  lemma SameOrder(row: nat, col: nat, n: nat)
    requires row < n && col < n
    ensures OnGrid(KingMoves(row, col)[6..], n) == SameCells(row, col, n)
  {
    var m := KingMoves(row, col);
    assert m[6..] == [m[6]] + [m[7]];
    OnGridConcat([m[6]], [m[7]], n);
    OnGridOne(m[6], n);
    OnGridOne(m[7], n);
  }

  /** The neighbour list is the eight king moves, in their fixed order, with
      the off-grid ones dropped: the order decides the insertion counts and
      so how the search breaks ties. */
  lemma NeighbourOrder(row: nat, col: nat, n: nat)
    requires row < n && col < n
    ensures NeighbourPositions(row, col, n) == OnGrid(KingMoves(row, col), n)
  {
    var m := KingMoves(row, col);
    assert m == m[..3] + m[3..6] + m[6..];
    OnGridConcat(m[..3] + m[3..6], m[6..], n);
    OnGridConcat(m[..3], m[3..6], n);
    BelowOrder(row, col, n);
    AboveOrder(row, col, n);
    SameOrder(row, col, n);
  }

  /** The list has one entry per in-grid cell of the 3-by-3 block around the
      spot, minus the spot itself. */
  lemma NeighbourCount(row: nat, col: nat, n: nat)
    requires row < n && col < n
    ensures |NeighbourPositions(row, col, n)| == Span(row, n) * Span(col, n) - 1
  {
    var sc := Span(col, n);
    var k := |RowBelow(row, col, n)| + |RowAbove(row, col, n)| + |SameRow(row, col, n)|;
    assert k == (if row + 1 < n then sc else 0) + (if row > 0 then sc else 0) + sc - 1;
    if row > 0 && row + 1 < n {
      assert Span(row, n) * sc == 3 * sc;
    } else if row > 0 || row + 1 < n {
      assert Span(row, n) * sc == 2 * sc;
    } else {
      assert Span(row, n) * sc == sc;
    }
  }

  /** 8 neighbours inside, 5 on an edge, 3 in a corner (grids of size 2 or more). */
  lemma NeighbourCountCases(row: nat, col: nat, n: nat)
    requires row < n && col < n && n >= 2
    ensures var k := |NeighbourPositions(row, col, n)|;
            var onRowEdge := row == 0 || row == n - 1;
            var onColEdge := col == 0 || col == n - 1;
            (onRowEdge && onColEdge ==> k == 3)
            && (onRowEdge != onColEdge ==> k == 5)
            && (!onRowEdge && !onColEdge && n >= 3 ==> k == 8)
  {
    NeighbourCount(row, col, n);
  }

  /** The spot itself is never its own neighbour. */
  lemma NotOwnNeighbour(row: nat, col: nat, n: nat)
    requires row < n && col < n
    ensures Pos(row, col) !in NeighbourPositions(row, col, n)
  {
  }
}

=== FILE: path.dfy ===
/**
 The predecessor map the search leaves behind, the walk reconstruct_path
 makes along it, and routes through the grid: what a found path is and why,
 when the search gives up, none exists.
 */
module Path {
  import opened Cells
  import opened Neighbours
  import opened Grids
  import opened Scores

  /** Every link goes to a spot whose finite g is strictly smaller, so the
      links can never close a cycle. */
  ghost predicate PredTree(cameFrom: map<Pos, Pos>, g: map<Pos, Score>)
  {
    forall m :: m in cameFrom ==>
      && m in g && cameFrom[m] in g && g[m].Fin? && g[cameFrom[m]].Fin?
      && g[cameFrom[m]].n < g[m].n
  }

  /** How far m is from the end of its chain, bounded by its g. */
  ghost function Height(cameFrom: map<Pos, Pos>, g: map<Pos, Score>, m: Pos): nat
    requires PredTree(cameFrom, g)
  {
    if m in cameFrom then g[m].n + 1 else 0
  }

  /** The spots visited from m by following predecessor links, m excluded,
      until a spot without a predecessor is reached. */
  function Chain(cameFrom: map<Pos, Pos>, ghost g: map<Pos, Score>, m: Pos): (c: seq<Pos>)
    requires PredTree(cameFrom, g)
    ensures m in cameFrom <==> |c| > 0
    ensures |c| > 0 ==> c[0] == cameFrom[m] && c[|c| - 1] !in cameFrom
    decreases Height(cameFrom, g, m)
  {
    if m in cameFrom then [cameFrom[m]] + Chain(cameFrom, g, cameFrom[m]) else []
  }

  /** Each spot of c but the last has the next one as predecessor, every
      spot has a finite g below m's, and g strictly falls along c. */
  ghost predicate Linked(cameFrom: map<Pos, Pos>, g: map<Pos, Score>, m: Pos, c: seq<Pos>)
  {
    && (forall k :: 0 <= k < |c| - 1 ==> c[k] in cameFrom && c[k + 1] == cameFrom[c[k]])
    && (forall k :: 0 <= k < |c| ==> c[k] in g && g[c[k]].Fin? && m in g && g[m].Fin? && g[c[k]].n < g[m].n)
    && (forall i, j :: 0 <= i < j < |c| ==> c[i] in g && c[j] in g && g[c[j]].n < g[c[i]].n)
  }

  /** The chain from m is Linked, so no spot repeats on it. */
  lemma {:induction false} ChainLinks(cameFrom: map<Pos, Pos>, g: map<Pos, Score>, m: Pos)
    requires PredTree(cameFrom, g)
    ensures Linked(cameFrom, g, m, Chain(cameFrom, g, m))
    decreases Height(cameFrom, g, m)
  {
    if m in cameFrom {
      var p := cameFrom[m];
      ChainLinks(cameFrom, g, p);
      var c := Chain(cameFrom, g, m);
      var rest := Chain(cameFrom, g, p);
      assert c == [p] + rest;
      forall k | 0 <= k < |c| - 1 ensures c[k] in cameFrom && c[k + 1] == cameFrom[c[k]] {
        if k > 0 {
          assert c[k] == rest[k - 1] && c[k + 1] == rest[k];
        }
      }
      forall k | 0 <= k < |c| ensures c[k] in g && g[c[k]].Fin? && g[c[k]].n < g[m].n {
        if k > 0 {
          assert c[k] == rest[k - 1];
        }
      }
      forall i, j | 0 <= i < j < |c| ensures c[i] in g && c[j] in g && g[c[j]].n < g[c[i]].n {
        assert c[j] == rest[j - 1];
        if i > 0 {
          assert c[i] == rest[i - 1];
        }
      }
    }
  }

  /** The chain visits no spot twice and never comes back to m. */
  lemma ChainDistinct(cameFrom: map<Pos, Pos>, g: map<Pos, Score>, m: Pos)
    requires PredTree(cameFrom, g)
    ensures var c := Chain(cameFrom, g, m);
            (forall i, j :: 0 <= i < j < |c| ==> c[i] != c[j]) && m !in c
  {
    ChainLinks(cameFrom, g, m);
  }

  /** The sequence read backwards. */
  function Reverse(w: seq<Pos>): (r: seq<Pos>)
    ensures |r| == |w| && forall i :: 0 <= i < |w| ==> r[i] == w[|w| - 1 - i]
  {
    if w == [] then [] else Reverse(w[1..]) + [w[0]]
  }

  /** w walks from a to b through spots of the grid, each step going to one
      of the eight surrounding spots that is no barrier. */
  ghost predicate IsRoute(grid: Grid, w: seq<Pos>, a: Pos, b: Pos)
  {
    && |w| > 0 && w[0] == a && w[|w| - 1] == b
    && (forall i :: 0 <= i < |w| ==> InBounds(w[i], |grid|))
    && (forall i, j :: 0 <= i < j < |w| && j == i + 1 ==> Step(grid, w[i], w[j]))
  }

  /** One move of a route: to a surrounding spot that is no barrier. */
  ghost predicate Step(grid: Grid, p: Pos, q: Pos)
  {
    Adjacent(p, q, |grid|) && !IsBarrierAt(grid, q)
  }

  /** Every predecessor link joins two spots of the grid by a Step. */
  ghost predicate StepsOk(grid: Grid, cameFrom: map<Pos, Pos>)
  {
    forall m :: m in cameFrom ==> InBounds(cameFrom[m], |grid|) && Step(grid, cameFrom[m], m)
  }

  /** Read backwards, m followed by its chain is a route from wherever the
      chain stops to m. */
  lemma ChainIsRoute(grid: Grid, cameFrom: map<Pos, Pos>, g: map<Pos, Score>, m: Pos, a: Pos)
    requires PredTree(cameFrom, g) && StepsOk(grid, cameFrom) && InBounds(m, |grid|)
    requires var w := [m] + Chain(cameFrom, g, m); w[|w| - 1] == a
    ensures IsRoute(grid, Reverse([m] + Chain(cameFrom, g, m)), a, m)
  {
    var c := Chain(cameFrom, g, m);
    ChainLinks(cameFrom, g, m);
    var w := [m] + c;
    forall k | 0 <= k < |w| - 1 ensures w[k] in cameFrom && w[k + 1] == cameFrom[w[k]] {
      if k > 0 {
        assert w[k] == c[k - 1] && w[k + 1] == c[k];
      }
    }
    var r := Reverse(w);
    forall i | 0 <= i < |r| ensures InBounds(r[i], |grid|) {
      var k := |w| - 1 - i;
      if k > 0 {
        assert w[k - 1] in cameFrom && w[k] == cameFrom[w[k - 1]];
      }
    }
    forall i, j | 0 <= i < j < |r| && j == i + 1 ensures Step(grid, r[i], r[j]) {
      var k := |w| - 1 - j;
      assert r[i] == w[k + 1] && r[j] == w[k];
    }
  }

  /** A set of spots that every step of a route leaves only to enter
      another of its spots holds every spot of a route that starts in it;
      so when it holds a but not b there is no route from a to b. */
  lemma {:induction false} NoRoute(grid: Grid, reach: set<Pos>, a: Pos, b: Pos, w: seq<Pos>)
    requires a in reach && b !in reach
    requires forall m, q :: m in reach && Adjacent(m, q, |grid|) && !IsBarrierAt(grid, q) ==> q in reach
    ensures !IsRoute(grid, w, a, b)
  {
    if IsRoute(grid, w, a, b) {
      var i := 0;
      while i < |w| - 1
        invariant 0 <= i < |w| && w[i] in reach
      {
        assert Step(grid, w[i], w[i + 1]);
        i := i + 1;
      }
    }
  }

  /** The state of the walk at cur: the spots marked so far followed by
      the chain still ahead make up the chain from current, and the marked
      spots, and only they, have been painted path. */
  ghost predicate Walking(cameFrom: map<Pos, Pos>, g: map<Pos, Score>, current: Pos, grid: Grid,
                          out: Grid, marked: seq<Pos>, cur: Pos)
  {
    && PredTree(cameFrom, g)
    && marked + Chain(cameFrom, g, cur) == Chain(cameFrom, g, current)
    && SameLayout(out, grid)
    && forall p :: InBounds(p, |grid|) ==>
         ColorAt(out, p) == (if p in marked then Purple else ColorAt(grid, p))
  }

  /** One link further keeps Walking. */
  lemma WalkOne(cameFrom: map<Pos, Pos>, g: map<Pos, Score>, current: Pos, grid: Grid,
                out: Grid, marked: seq<Pos>, cur: Pos)
    requires Walking(cameFrom, g, current, grid, out, marked, cur) && cur in cameFrom
    requires forall m :: m in cameFrom ==> InBounds(cameFrom[m], |grid|)
    ensures InBounds(cameFrom[cur], |out|)
    ensures var next := cameFrom[cur];
            Walking(cameFrom, g, current, grid, WithSpot(out, next, SpotAt(out, next).MakePath()),
                    marked + [next], next)
  {
    var next := cameFrom[cur];
    assert Chain(cameFrom, g, cur) == [next] + Chain(cameFrom, g, next);
    assert (marked + [next]) + Chain(cameFrom, g, next) == marked + Chain(cameFrom, g, cur);
    MarkOne(out, grid, marked, next);
  }

  /** Marks every spot of the chain from current as path, walking the links
      one by one. Drawing is left out. */
  method ReconstructPath(cameFrom: map<Pos, Pos>, current: Pos, grid: Grid, ghost g: map<Pos, Score>)
    returns (out: Grid, marked: seq<Pos>)
    requires WellFormed(grid) && PredTree(cameFrom, g)
    requires forall m :: m in cameFrom ==> InBounds(cameFrom[m], |grid|)
    ensures marked == Chain(cameFrom, g, current)
    ensures SameLayout(out, grid)
    ensures forall p :: InBounds(p, |grid|) ==>
              ColorAt(out, p) == (if p in marked then Purple else ColorAt(grid, p))
  {
    out := grid;
    marked := [];
    var cur := current;
    while cur in cameFrom
      invariant Walking(cameFrom, g, current, grid, out, marked, cur)
      decreases Height(cameFrom, g, cur)
    {
      WalkOne(cameFrom, g, current, grid, out, marked, cur);
      var next := cameFrom[cur];
      out := WithSpot(out, next, SpotAt(out, next).MakePath());
      marked := marked + [next];
      cur := next;
    }
  }

  /** Marking one more spot as path keeps the layout, and the marked spots
      are exactly the purple ones that were not purple before. */
  lemma MarkOne(out: Grid, grid: Grid, marked: seq<Pos>, next: Pos)
    requires SameLayout(out, grid) && InBounds(next, |grid|)
    requires forall p :: InBounds(p, |grid|) ==>
               ColorAt(out, p) == (if p in marked then Purple else ColorAt(grid, p))
    ensures var out' := WithSpot(out, next, SpotAt(out, next).MakePath());
            && SameLayout(out', grid)
            && forall p :: InBounds(p, |grid|) ==>
                 ColorAt(out', p) == (if p in marked + [next] then Purple else ColorAt(grid, p))
  {
    RecolorKeepsLayout(out, grid, next, SpotAt(out, next).MakePath());
  }
}

=== FILE: scores.dfy ===
/**
 Path-cost scores with an explicit infinity, and the termination measure of
 the search: scores only ever drop, so the set of infinite scores shrinks
 or, when it stays put, the sum of the finite ones shrinks.
 */
module Scores {
  import opened Cells

  /** A g or f score; Inf stands for the float infinity the maps start with. */
  datatype Score = Inf | Fin(n: nat)

  /** Strictly lower: every finite score is below Inf. */
  predicate Below(a: Score, b: Score)
  {
    a.Fin? && (b.Inf? || a.n < b.n)
  }

  /** Lower or equal. */
  predicate AtMost(a: Score, b: Score)
  {
    b.Inf? || (a.Fin? && a.n <= b.n)
  }

  /** The finite part of a score; Inf contributes nothing to the sum. */
  function Val(s: Score): nat
  {
    if s.Fin? then s.n else 0
  }

  /** The keys whose score is still infinite. */
  ghost function InfSet(g: map<Pos, Score>): set<Pos>
  {
    set p | p in g && g[p] == Inf
  }

  /** Some element of a non-empty set, fixed by the set alone. */
  ghost function Pick(ks: set<Pos>): (p: Pos)
    requires ks != {}
    ensures p in ks
  {
    var p :| p in ks; p
  }

  /** Sum of the finite scores over the given keys. */
  ghost function SumOver(g: map<Pos, Score>, ks: set<Pos>): nat
    requires ks <= g.Keys
    decreases ks
  {
    if ks == {} then 0 else Val(g[Pick(ks)]) + SumOver(g, ks - {Pick(ks)})
  }

  /** The lexicographic measure (infinite keys, finite sum) strictly dropped. */
  ghost predicate Improved(g0: map<Pos, Score>, g1: map<Pos, Score>)
  {
    g1.Keys == g0.Keys
    && (InfSet(g1) < InfSet(g0)
        || (InfSet(g1) == InfSet(g0) && SumOver(g1, g1.Keys) < SumOver(g0, g0.Keys)))
  }

  /** Maps that agree on the finite part of every key have the same sum. */
  lemma {:induction false} SumEqual(g1: map<Pos, Score>, g2: map<Pos, Score>, ks: set<Pos>)
    requires ks <= g1.Keys && ks <= g2.Keys
    requires forall p :: p in ks ==> Val(g1[p]) == Val(g2[p])
    ensures SumOver(g1, ks) == SumOver(g2, ks)
    decreases ks
  {
    if ks != {} {
      SumEqual(g1, g2, ks - {Pick(ks)});
    }
  }

  /** Lowering the finite part at one key, and only there, lowers the sum. */
  lemma {:induction false} SumDecrease(g1: map<Pos, Score>, g2: map<Pos, Score>, ks: set<Pos>, q: Pos)
    requires ks <= g1.Keys && ks <= g2.Keys && q in ks
    requires forall p :: p in ks && p != q ==> Val(g1[p]) == Val(g2[p])
    requires Val(g2[q]) < Val(g1[q])
    ensures SumOver(g2, ks) < SumOver(g1, ks)
    decreases ks
  {
    var p := Pick(ks);
    if p == q {
      SumEqual(g1, g2, ks - {p});
    } else {
      SumDecrease(g1, g2, ks - {p}, q);
    }
  }

  /** No score went up. */
  ghost predicate Monotone(g0: map<Pos, Score>, g1: map<Pos, Score>)
  {
    g1.Keys == g0.Keys && forall p :: p in g0 ==> AtMost(g1[p], g0[p])
  }

  /** Lowering one score, and only it, lets no score go up. */
  lemma LowerOneMonotone(g: map<Pos, Score>, p: Pos, v: Score)
    requires p in g && AtMost(v, g[p])
    ensures Monotone(g, g[p := v])
  {
  }

  /** Lowering one score strictly improves the measure. */
  lemma LowerOneImproves(g: map<Pos, Score>, p: Pos, v: Score)
    requires p in g && Below(v, g[p])
    ensures Improved(g, g[p := v])
  {
    var g1 := g[p := v];
    if g[p] == Inf {
      assert p in InfSet(g) && p !in InfSet(g1);
      assert InfSet(g1) <= InfSet(g);
    } else {
      assert InfSet(g1) == InfSet(g);
      assert g1.Keys == g.Keys;
      SumDecrease(g, g1, g.Keys, p);
    }
  }

  /** Two improvements in a row are an improvement. */
  lemma ImprovedTransitive(g0: map<Pos, Score>, g1: map<Pos, Score>, g2: map<Pos, Score>)
    requires Improved(g0, g1) && Improved(g1, g2)
    ensures Improved(g0, g2)
  {
  }
}

=== FILE: search.dfy ===
/**
 The state of one A* run and the steps the search loop takes: popping the
 least entry, relaxing the neighbours of the popped spot, and closing it.
 The predicates at the end state the bookkeeping the loop keeps.
 */
module Search {
  import opened Cells
  import opened Neighbours
  import opened Grids
  import opened Heuristic
  import opened Frontier
  import opened Scores

  /** Everything one run owns: the grid whose colours it paints, the
      priority queue and its membership set, the insertion counter, the g
      and f score maps, the predecessor map, and the spots popped so far in
      order (the last one is the current spot). */
  datatype SearchState = SearchState(
    grid: Grid,
    queue: seq<Entry>,
    openHash: set<Pos>,
    count: nat,
    g: map<Pos, Score>,
    f: map<Pos, Score>,
    cameFrom: map<Pos, Pos>,
    expanded: seq<Pos>)

  /** The grid is well-formed and both score maps are keyed by its spots. */
  ghost predicate Shaped(s: SearchState)
  {
    WellFormed(s.grid) && s.g.Keys == CellSet(|s.grid|) && s.f.Keys == CellSet(|s.grid|)
  }

  /** Every score infinite except start's: g = 0, f = h(start, end); the
      queue holds start with key 0 and count 0. */
  function Init(grid: Grid, start: Pos, end: Pos): (r: SearchState)
    requires InBounds(start, |grid|)
    ensures r.grid == grid && r.g.Keys == CellSet(|grid|) && r.f.Keys == CellSet(|grid|)
    ensures forall p :: p in r.g ==>
              && r.g[p] == (if p == start then Fin(0) else Inf)
              && r.f[p] == (if p == start then Fin(H(start, end)) else Inf)
    ensures QueuedCells(r.queue) == r.openHash == {start}
    ensures r.cameFrom == map[] && r.expanded == []
  {
    var inf := map p | p in CellSet(|grid|) :: Inf;
    SearchState(grid, [Entry(0, 0, start)], {start}, 0,
                inf[start := Fin(0)], inf[start := Fin(H(start, end))], map[], [])
  }

  /** What one turn of the neighbour loop needs: nb is a spot of the grid,
      both it and cur are scored, and cur's g is finite. */
  predicate RelaxPre(s: SearchState, cur: Pos, nb: Pos)
  {
    InGrid(s.grid, nb) && cur in s.g && s.g[cur].Fin? && nb in s.g && nb in s.f
  }

  /** One turn of the neighbour loop: a non-barrier neighbour whose score
      improves through the current spot records it as predecessor, takes
      the new g and f scores and, when not already queued, is queued with
      the next count and painted open. */
  function Relax(s: SearchState, cur: Pos, nb: Pos, end: Pos): (r: SearchState)
    requires RelaxPre(s, cur, nb)
    ensures r.g.Keys == s.g.Keys && r.f.Keys == s.f.Keys && r.g[cur] == s.g[cur]
    ensures |r.grid| == |s.grid| && forall q :: InGrid(s.grid, q) ==> InGrid(r.grid, q)
    ensures forall q :: RelaxPre(s, cur, q) ==> RelaxPre(r, cur, q)
  {
    if SpotAt(s.grid, nb).IsBarrier() then s
    else
      var t := s.g[cur].n + 1;
      if !Below(Fin(t), s.g[nb]) then s
      else
        var ft := t + H(nb, end);
        var s1 := s.(cameFrom := s.cameFrom[nb := cur], g := s.g[nb := Fin(t)], f := s.f[nb := Fin(ft)]);
        if nb in s.openHash then s1
        else
          s1.(count := s.count + 1,
              queue := s.queue + [Entry(ft, s.count + 1, nb)],
              openHash := s.openHash + {nb},
              grid := WithSpot(s.grid, nb, SpotAt(s.grid, nb).MakeOpen()))
  }

  /** The whole neighbour loop, in list order. */
  function RelaxAll(s: SearchState, cur: Pos, nbs: seq<Pos>, end: Pos): (r: SearchState)
    requires cur in s.g && s.g[cur].Fin?
    requires forall q :: q in nbs ==> RelaxPre(s, cur, q)
    ensures r.g.Keys == s.g.Keys && r.f.Keys == s.f.Keys && r.g[cur] == s.g[cur]
    ensures |r.grid| == |s.grid| && forall q :: InGrid(s.grid, q) ==> InGrid(r.grid, q)
    decreases |nbs|
  {
    if nbs == [] then s else RelaxAll(Relax(s, cur, nbs[0], end), cur, nbs[1..], end)
  }

  /** The spot the next pop returns. */
  function Front(s: SearchState): Pos
    requires |s.queue| > 0
  {
    PopMin(s.queue).0.cell
  }

  /** Pops the least entry and drops its spot from the membership set. */
  function Pop(s: SearchState): (r: SearchState)
    requires |s.queue| > 0
    ensures Front(s) in QueuedCells(s.queue)
    ensures forall e :: e in s.queue ==> KeyLe(PopMin(s.queue).0, e)
    ensures multiset(r.queue) + multiset{PopMin(s.queue).0} == multiset(s.queue)
    ensures r.openHash == s.openHash - {Front(s)} && r.expanded == s.expanded + [Front(s)]
    ensures r.g == s.g && r.f == s.f && r.cameFrom == s.cameFrom && r.grid == s.grid && r.count == s.count
  {
    var (e, rest) := PopMin(s.queue);
    s.(queue := rest, openHash := s.openHash - {e.cell}, expanded := s.expanded + [e.cell])
  }

  /** Paints the expanded spot closed, unless it is start. */
  function Close(s: SearchState, cur: Pos, start: Pos): (r: SearchState)
    requires InGrid(s.grid, cur)
    ensures r == s.(grid := r.grid) && |r.grid| == |s.grid| && InGrid(r.grid, cur)
    ensures cur == start ==> r == s
    ensures cur != start ==> SpotAt(r.grid, cur) == SpotAt(s.grid, cur).(color := Red)
    ensures forall q :: InGrid(s.grid, q) && q != cur ==> InGrid(r.grid, q) && SpotAt(r.grid, q) == SpotAt(s.grid, q)
  {
    if cur != start then s.(grid := WithSpot(s.grid, cur, SpotAt(s.grid, cur).MakeClosed())) else s
  }

  // ---------------------------------------------------------------------
  // Bookkeeping the search keeps. `input` is the grid the run started on.

  /** The membership set is exactly the set of queued spots, no spot is
      queued twice, and counts increase along the queue up to the counter. */
  ghost predicate QueueOk(s: SearchState)
  {
    && QueuedCells(s.queue) == s.openHash
    && DistinctCells(s.queue)
    && CountsIncreasing(s.queue)
    && (forall e :: e in s.queue ==> e.count <= s.count)
  }

  /** g[start] is 0; f = g + h wherever g is finite and Inf elsewhere; every
      queued spot has a finite g and a key at least its current f (start's
      one entry is the initial (0, 0) one); barriers other than start keep
      an infinite g; popped spots have finite g. */
  ghost predicate ScoresOk(input: Grid, start: Pos, end: Pos, s: SearchState)
    requires s.g.Keys <= s.f.Keys
  {
    && start in s.g && s.g[start] == Fin(0)
    && (forall p :: p in s.g ==>
          s.f[p] == (if s.g[p].Fin? then Fin(s.g[p].n + H(p, end)) else Inf))
    && (forall e :: e in s.queue ==>
          && e.cell in s.g && s.g[e.cell].Fin?
          && (e.cell == start ==> e.f == 0 && e.count == 0)
          && (e.cell != start ==> s.f[e.cell].Fin? && s.f[e.cell].n <= e.f))
    && (forall p :: p in s.g && p != start && IsBarrierAt(input, p) ==> s.g[p] == Inf)
    && (forall p :: p in s.expanded ==> p in s.g && s.g[p].Fin?)
  }

  /** The predecessor of m is a spot adjacent to it, m is no barrier and is
      not start, and g[predecessor] + 1 <= g[m], both finite. */
  ghost predicate Edge(input: Grid, start: Pos, s: SearchState, m: Pos)
    requires m in s.cameFrom
  {
    var p := s.cameFrom[m];
    && m != start && m in s.g && p in s.g
    && Adjacent(p, m, |input|) && !IsBarrierAt(input, m)
    && s.g[p].Fin? && s.g[m].Fin? && s.g[p].n + 1 <= s.g[m].n
  }

  /** Every predecessor link is an Edge, and every spot other than start
      with a finite g has a predecessor. */
  ghost predicate TreeOk(input: Grid, start: Pos, s: SearchState)
  {
    && (forall m :: m in s.cameFrom ==> Edge(input, start, s, m))
    && (forall p :: p in s.g && p != start && s.g[p].Fin? ==> p in s.cameFrom)
  }

  /** Invariants of every state of the run. */
  ghost predicate Core(input: Grid, start: Pos, end: Pos, s: SearchState)
  {
    && WellFormed(input) && Shaped(s) && SameLayout(s.grid, input)
    && InBounds(start, |input|) && InBounds(end, |input|)
    && QueueOk(s) && ScoresOk(input, start, end, s) && TreeOk(input, start, s)
    && ColorAt(s.grid, start) == ColorAt(input, start)
  }

  /** The colour the run has given p so far: start keeps its colour, queued
      spots are open, expanded ones closed, the rest untouched. */
  function Expected(input: Grid, start: Pos, s: SearchState, p: Pos): Color
    requires InGrid(input, p)
  {
    if p == start then ColorAt(input, p)
    else if p in s.openHash then Green
    else if p in s.expanded then Red
    else ColorAt(input, p)
  }

  /** Every spot outside `except` has its Expected colour. */
  ghost predicate ColorsOk(input: Grid, start: Pos, s: SearchState, except: set<Pos>)
  {
    WellFormed(input) && WellFormed(s.grid) && |s.grid| == |input|
    && forall p :: InBounds(p, |input|) && p !in except ==>
         ColorAt(s.grid, p) == Expected(input, start, s, p)
  }

  /** Every non-barrier neighbour of m has g at most g[m] + 1. */
  ghost predicate RelaxedAt(input: Grid, s: SearchState, m: Pos)
    requires m in s.g && s.g[m].Fin?
  {
    forall q :: Adjacent(m, q, |input|) && !IsBarrierAt(input, q) ==>
      q in s.g && AtMost(s.g[q], Fin(s.g[m].n + 1))
  }

  /** Every spot with a finite g that has left the queue (outside `except`)
      is relaxed. */
  ghost predicate RelaxedOk(input: Grid, s: SearchState, except: set<Pos>)
  {
    forall m :: m in s.g && m !in except && m !in s.openHash && s.g[m].Fin? ==> RelaxedAt(input, s, m)
  }

  /** The loop invariant, at the head of each iteration. */
  ghost predicate Inv(input: Grid, start: Pos, end: Pos, s: SearchState)
  {
    && Core(input, start, end, s)
    && (s.g[end].Fin? ==> end in s.openHash)
    && end !in s.expanded
    && ColorsOk(input, start, s, {})
    && RelaxedOk(input, s, {})
  }

  /** The invariant while the neighbours of the popped spot cur are relaxed:
      cur is neither open nor yet painted closed nor yet relaxed. */
  ghost predicate Mid(input: Grid, start: Pos, end: Pos, s: SearchState, cur: Pos)
  {
    && Core(input, start, end, s)
    && InBounds(cur, |input|) && cur != end && cur !in s.openHash && cur in s.expanded
    && s.g[cur].Fin?
    && (s.g[end].Fin? ==> end in s.openHash)
    && end !in s.expanded
    && ColorsOk(input, start, s, {cur})
    && RelaxedOk(input, s, {cur})
  }
}

=== FILE: search_invariants.dfy ===
/**
 Each step of the search loop keeps the bookkeeping of module Search:
 initialisation establishes Inv, a pop turns Inv into Mid, relaxing a
 neighbour keeps Mid, and closing a fully relaxed spot restores Inv.
 */
module SearchInvariants {
  import opened Cells
  import opened Neighbours
  import opened Grids
  import opened Heuristic
  import opened Frontier
  import opened Scores
  import opened Search

  /** Inv from its parts. */
  lemma InvIntro(input: Grid, start: Pos, end: Pos, s: SearchState)
    requires WellFormed(input) && Shaped(s) && InBounds(start, |input|) && InBounds(end, |input|)
    requires QueueOk(s) && ScoresOk(input, start, end, s) && TreeOk(input, start, s) && SameLayout(s.grid, input)
    requires ColorAt(s.grid, start) == ColorAt(input, start)
    requires (s.g[end].Fin? ==> end in s.openHash) && end !in s.expanded
    requires ColorsOk(input, start, s, {}) && RelaxedOk(input, s, {})
    ensures Inv(input, start, end, s)
  {
  }

  /** Initialisation establishes the loop invariant. */
  lemma InitInv(input: Grid, start: Pos, end: Pos)
    requires WellFormed(input) && InBounds(start, |input|) && InBounds(end, |input|)
    ensures Inv(input, start, end, Init(input, start, end))
  {
    var s := Init(input, start, end);
    assert QueuedCells(s.queue) == {start};
    assert QueueOk(s);
    assert ScoresOk(input, start, end, s);
    assert ColorsOk(input, start, s, {});
    assert RelaxedOk(input, s, {});
    InvIntro(input, start, end, s);
  }

  /** While the run is under way, the current colour of a spot outside
      `except` shows a barrier exactly when the input grid did. */
  lemma BarrierSeen(input: Grid, start: Pos, end: Pos, s: SearchState, except: set<Pos>, q: Pos)
    requires Core(input, start, end, s) && ColorsOk(input, start, s, except)
    requires InBounds(q, |input|) && q !in except
    ensures SpotAt(s.grid, q).IsBarrier() <==> IsBarrierAt(input, q)
  {
    if q != start && q in s.openHash {
      var e :| e in s.queue && e.cell == q;
      assert s.g[q].Fin?;
    } else if q != start && q in s.expanded {
      assert s.g[q].Fin?;
    }
  }

  /** What one turn of Relax does, field by field. */
  lemma RelaxCases(s: SearchState, cur: Pos, nb: Pos, end: Pos)
    requires InGrid(s.grid, nb) && cur in s.g && s.g[cur].Fin? && nb in s.g && nb in s.f
    ensures var r := Relax(s, cur, nb, end);
            var t := s.g[cur].n + 1;
            && (SpotAt(s.grid, nb).IsBarrier() || !Below(Fin(t), s.g[nb]) ==> r == s)
            && (!SpotAt(s.grid, nb).IsBarrier() && Below(Fin(t), s.g[nb]) ==>
                  && r.g == s.g[nb := Fin(t)] && r.f == s.f[nb := Fin(t + H(nb, end))]
                  && r.cameFrom == s.cameFrom[nb := cur] && r.expanded == s.expanded
                  && r.openHash == s.openHash + {nb}
                  && (nb in s.openHash ==> r.queue == s.queue && r.count == s.count && r.grid == s.grid)
                  && (nb !in s.openHash ==>
                        && r.queue == s.queue + [Entry(t + H(nb, end), s.count + 1, nb)]
                        && r.count == s.count + 1
                        && r.grid == WithSpot(s.grid, nb, SpotAt(s.grid, nb).MakeOpen())))
  {
  }

  /** Relaxing one neighbour keeps Mid, lowers no score, changes nothing or
      improves the termination measure, and leaves a non-barrier neighbour
      with g at most g[cur] + 1. */
  lemma RelaxStep(input: Grid, start: Pos, end: Pos, s: SearchState, cur: Pos, nb: Pos)
    requires Mid(input, start, end, s, cur) && Adjacent(cur, nb, |input|)
    ensures InGrid(s.grid, nb) && cur in s.g && s.g[cur].Fin? && nb in s.g && nb in s.f
    ensures var r := Relax(s, cur, nb, end);
            && Mid(input, start, end, r, cur)
            && Monotone(s.g, r.g)
            && ((r.g == s.g && r.queue == s.queue) || Improved(s.g, r.g))
            && (!IsBarrierAt(input, nb) ==> AtMost(r.g[nb], Fin(s.g[cur].n + 1)))
  {
    var r := Relax(s, cur, nb, end);
    assert nb != cur;
    BarrierSeen(input, start, end, s, {cur}, nb);
    RelaxCases(s, cur, nb, end);
    var t := s.g[cur].n + 1;
    if !SpotAt(s.grid, nb).IsBarrier() && Below(Fin(t), s.g[nb]) {
      LowerOneImproves(s.g, nb, Fin(t));
      LowerOneMonotone(s.g, nb, Fin(t));
      ImproveKeepsMid(input, start, end, s, r, cur, nb);
    }
  }

  /** Mid from its parts, stated over the components the step lemmas prove. */
  lemma MidIntro(input: Grid, start: Pos, end: Pos, r: SearchState, cur: Pos)
    requires WellFormed(input) && Shaped(r) && InBounds(start, |input|) && InBounds(end, |input|)
    requires QueueOk(r) && ScoresOk(input, start, end, r) && TreeOk(input, start, r) && SameLayout(r.grid, input)
    requires ColorAt(r.grid, start) == ColorAt(input, start)
    requires InBounds(cur, |input|) && cur != end && cur !in r.openHash && cur in r.expanded && r.g[cur].Fin?
    requires (r.g[end].Fin? ==> end in r.openHash) && end !in r.expanded
    requires ColorsOk(input, start, r, {cur}) && RelaxedOk(input, r, {cur})
    ensures Mid(input, start, end, r, cur)
  {
  }

  /** Updating a score map at one of its keys keeps its key set. */
  lemma UpdateKeepsKeys(m: map<Pos, Score>, k: Pos, v: Score)
    requires k in m
    ensures m[k := v].Keys == m.Keys
  {
  }

  /** The improving branch of Relax keeps Mid. */
  lemma ImproveKeepsMid(input: Grid, start: Pos, end: Pos, s: SearchState, r: SearchState, cur: Pos, nb: Pos)
    requires Mid(input, start, end, s, cur) && Adjacent(cur, nb, |input|)
    requires !IsBarrierAt(input, nb) && Below(Fin(s.g[cur].n + 1), s.g[nb])
    requires r.g == s.g[nb := Fin(s.g[cur].n + 1)] && r.f == s.f[nb := Fin(s.g[cur].n + 1 + H(nb, end))]
    requires r.cameFrom == s.cameFrom[nb := cur] && r.expanded == s.expanded
    requires r.openHash == s.openHash + {nb}
    requires nb in s.openHash ==> r.queue == s.queue && r.count == s.count && r.grid == s.grid
    requires nb !in s.openHash ==>
               && r.queue == s.queue + [Entry(s.g[cur].n + 1 + H(nb, end), s.count + 1, nb)]
               && r.count == s.count + 1
               && r.grid == WithSpot(s.grid, nb, SpotAt(s.grid, nb).MakeOpen())
    ensures Mid(input, start, end, r, cur)
  {
    assert nb != cur;
    assert nb != start;
    UpdateKeepsKeys(s.g, nb, Fin(s.g[cur].n + 1));
    UpdateKeepsKeys(s.f, nb, Fin(s.g[cur].n + 1 + H(nb, end)));
    ImproveQueue(s, r, nb, Entry(s.g[cur].n + 1 + H(nb, end), s.count + 1, nb));
    ImproveScores(input, start, end, s, r, cur, nb);
    ImproveTree(input, start, s, r, cur, nb);
    ImproveColors(input, start, s, r, cur, nb);
    ImproveRelaxed(input, s, r, cur, nb);
    MidIntro(input, start, end, r, cur);
  }

  lemma ImproveQueue(s: SearchState, r: SearchState, nb: Pos, e: Entry)
    requires QueueOk(s) && r.openHash == s.openHash + {nb}
    requires nb in s.openHash ==> r.queue == s.queue && r.count == s.count
    requires nb !in s.openHash ==>
               r.count == s.count + 1 && r.queue == s.queue + [e] && e.count == s.count + 1 && e.cell == nb
    ensures QueueOk(r)
  {
    if nb !in s.openHash {
      PushKeepsShape(s.queue, e);
    }
  }

  lemma ImproveScores(input: Grid, start: Pos, end: Pos, s: SearchState, r: SearchState, cur: Pos, nb: Pos)
    requires s.g.Keys <= s.f.Keys && r.g.Keys <= r.f.Keys
    requires cur in s.g && s.g[cur].Fin? && nb in s.g && nb != start
    requires ScoresOk(input, start, end, s) && QueuedCells(s.queue) == s.openHash
    requires r.g == s.g[nb := Fin(s.g[cur].n + 1)] && r.f == s.f[nb := Fin(s.g[cur].n + 1 + H(nb, end))]
    requires r.expanded == s.expanded
    requires r.queue == s.queue || r.queue == s.queue + [Entry(s.g[cur].n + 1 + H(nb, end), s.count + 1, nb)]
    requires !IsBarrierAt(input, nb) && Below(Fin(s.g[cur].n + 1), s.g[nb])
    ensures ScoresOk(input, start, end, r)
  {
    forall e | e in r.queue
      ensures && e.cell in r.g && r.g[e.cell].Fin?
              && (e.cell == start ==> e.f == 0 && e.count == 0)
              && (e.cell != start ==> r.f[e.cell].Fin? && r.f[e.cell].n <= e.f)
    {
      if e in s.queue && e.cell == nb {
        assert s.g[nb].Fin?;
      }
    }
  }

  lemma ImproveTree(input: Grid, start: Pos, s: SearchState, r: SearchState, cur: Pos, nb: Pos)
    requires cur in s.g && s.g[cur].Fin? && nb in s.g && nb != start && nb != cur
    requires TreeOk(input, start, s)
    requires r.g == s.g[nb := Fin(s.g[cur].n + 1)] && r.cameFrom == s.cameFrom[nb := cur]
    requires Adjacent(cur, nb, |input|) && !IsBarrierAt(input, nb)
    requires Below(Fin(s.g[cur].n + 1), s.g[nb])
    ensures TreeOk(input, start, r)
  {
    forall m | m in r.cameFrom ensures Edge(input, start, r, m) {
      if m != nb {
        assert Edge(input, start, s, m);
      }
    }
  }

  lemma ImproveColors(input: Grid, start: Pos, s: SearchState, r: SearchState, cur: Pos, nb: Pos)
    requires WellFormed(input) && SameLayout(s.grid, input) && InBounds(nb, |input|) && InBounds(start, |input|)
    requires ColorsOk(input, start, s, {cur}) && ColorAt(s.grid, start) == ColorAt(input, start)
    requires nb != start && nb != cur
    requires r.expanded == s.expanded && r.openHash == s.openHash + {nb}
    requires nb in s.openHash ==> r.grid == s.grid
    requires nb !in s.openHash ==> r.grid == WithSpot(s.grid, nb, SpotAt(s.grid, nb).MakeOpen())
    ensures SameLayout(r.grid, input) && ColorsOk(input, start, r, {cur})
    ensures ColorAt(r.grid, start) == ColorAt(input, start)
  {
    if nb !in s.openHash {
      RecolorKeepsLayout(s.grid, input, nb, SpotAt(s.grid, nb).MakeOpen());
    }
    forall p | InBounds(p, |input|) && p != cur
      ensures ColorAt(r.grid, p) == Expected(input, start, r, p)
    {
      assert ColorAt(s.grid, p) == Expected(input, start, s, p);
    }
  }

  lemma ImproveRelaxed(input: Grid, s: SearchState, r: SearchState, cur: Pos, nb: Pos)
    requires s.g.Keys == r.g.Keys && cur in s.g && s.g[cur].Fin? && nb in s.g && nb != cur
    requires RelaxedOk(input, s, {cur})
    requires r.g == s.g[nb := Fin(s.g[cur].n + 1)] && Below(Fin(s.g[cur].n + 1), s.g[nb])
    requires nb in r.openHash && r.openHash == s.openHash + {nb}
    ensures RelaxedOk(input, r, {cur})
  {
    forall m | m in r.g && m != cur && m !in r.openHash && r.g[m].Fin?
      ensures RelaxedAt(input, r, m)
    {
      assert RelaxedAt(input, s, m);
    }
  }

  /** Induction over the neighbour loop: an invariant indexed by the number
      of neighbours done, which every turn carries one index further, holds
      after the whole loop. */
  lemma {:induction false} RelaxAllInduct(P: (nat, SearchState) -> bool, s: SearchState, cur: Pos, nbs: seq<Pos>, end: Pos, i: nat)
    requires i <= |nbs| && P(i, s) && cur in s.g && s.g[cur].Fin?
    requires forall q :: q in nbs[i..] ==> RelaxPre(s, cur, q)
    requires forall j, t :: 0 <= j < |nbs| && P(j, t) ==> RelaxPre(t, cur, nbs[j])
    requires forall j, t :: 0 <= j < |nbs| && P(j, t) && RelaxPre(t, cur, nbs[j]) ==> P(j + 1, Relax(t, cur, nbs[j], end))
    ensures P(|nbs|, RelaxAll(s, cur, nbs[i..], end))
    decreases |nbs| - i
  {
    if i < |nbs| {
      assert nbs[i..][0] == nbs[i] && nbs[i..][1..] == nbs[i + 1..];
      var s1 := Relax(s, cur, nbs[i], end);
      assert forall q :: q in nbs[i + 1..] ==> q in nbs[i..];
      RelaxAllInduct(P, s1, cur, nbs, end, i + 1);
    }
  }

  /** The score side of the neighbour loop after its first j turns,
      measured against the scores g0 and queue q0 it started from: no score
      went up, cur's stayed, nothing changed or the measure improved, and
      every non-barrier spot done so far has g at most g0[cur] + 1. */
  ghost predicate Tracked(input: Grid, g0: map<Pos, Score>, q0: seq<Entry>, cur: Pos, nbs: seq<Pos>, j: nat, t: SearchState)
  {
    && j <= |nbs| && cur in g0 && g0[cur].Fin?
    && (forall q :: q in nbs ==> q in g0)
    && Monotone(g0, t.g) && t.g.Keys == g0.Keys && t.g[cur] == g0[cur]
    && ((t.g == g0 && t.queue == q0) || Improved(g0, t.g))
    && forall q :: q in nbs[..j] && !IsBarrierAt(input, q) ==> AtMost(t.g[q], Fin(g0[cur].n + 1))
  }

  /** One turn that lowers no score and bounds nb keeps Tracked. */
  lemma TrackedStep(input: Grid, g0: map<Pos, Score>, q0: seq<Entry>, cur: Pos, nbs: seq<Pos>, j: nat, t: SearchState, t1: SearchState)
    requires j < |nbs| && Tracked(input, g0, q0, cur, nbs, j, t)
    requires Monotone(t.g, t1.g) && t1.g[cur] == t.g[cur]
    requires (t1.g == t.g && t1.queue == t.queue) || Improved(t.g, t1.g)
    requires !IsBarrierAt(input, nbs[j]) ==> AtMost(t1.g[nbs[j]], Fin(t.g[cur].n + 1))
    ensures Tracked(input, g0, q0, cur, nbs, j + 1, t1)
  {
    assert nbs[..j + 1] == nbs[..j] + [nbs[j]];
    if t1.g != t.g || t1.queue != t.queue {
      if t.g != g0 || t.queue != q0 {
        ImprovedTransitive(g0, t.g, t1.g);
      }
    }
  }

  /** One turn of the neighbour loop keeps Mid and Tracked. */
  lemma RelaxTurn(input: Grid, start: Pos, end: Pos, g0: map<Pos, Score>, q0: seq<Entry>, cur: Pos, nbs: seq<Pos>, j: nat, t: SearchState)
    requires j < |nbs| && Mid(input, start, end, t, cur) && Tracked(input, g0, q0, cur, nbs, j, t)
    requires Adjacent(cur, nbs[j], |input|)
    ensures RelaxPre(t, cur, nbs[j])
    ensures Mid(input, start, end, Relax(t, cur, nbs[j], end), cur)
    ensures Tracked(input, g0, q0, cur, nbs, j + 1, Relax(t, cur, nbs[j], end))
  {
    RelaxStep(input, start, end, t, cur, nbs[j]);
    TrackedStep(input, g0, q0, cur, nbs, j, t, Relax(t, cur, nbs[j], end));
  }

  /** Relaxing the neighbour list of cur keeps Mid, lowers no score,
      changes nothing or improves the termination measure, and leaves every
      non-barrier spot of the list with g at most g[cur] + 1. */
  lemma RelaxAllStep(input: Grid, start: Pos, end: Pos, s: SearchState, cur: Pos, nbs: seq<Pos>)
    requires Mid(input, start, end, s, cur)
    requires forall q :: q in nbs ==> Adjacent(cur, q, |input|)
    ensures cur in s.g && s.g[cur].Fin? && forall q :: q in nbs ==> RelaxPre(s, cur, q)
    ensures var r := RelaxAll(s, cur, nbs, end);
            && Mid(input, start, end, r, cur)
            && Tracked(input, s.g, s.queue, cur, nbs, |nbs|, r)
  {
    var P := (j: nat, t: SearchState) => Mid(input, start, end, t, cur) && Tracked(input, s.g, s.queue, cur, nbs, j, t);
    forall j, t | 0 <= j < |nbs| && P(j, t)
      ensures RelaxPre(t, cur, nbs[j]) && P(j + 1, Relax(t, cur, nbs[j], end))
    {
      RelaxTurn(input, start, end, s.g, s.queue, cur, nbs, j, t);
    }
    assert nbs[0..] == nbs;
    RelaxAllInduct(P, s, cur, nbs, end, 0);
  }

  /** Core from its parts. */
  lemma CoreIntro(input: Grid, start: Pos, end: Pos, r: SearchState)
    requires WellFormed(input) && Shaped(r) && InBounds(start, |input|) && InBounds(end, |input|)
    requires QueueOk(r) && ScoresOk(input, start, end, r) && TreeOk(input, start, r) && SameLayout(r.grid, input)
    requires ColorAt(r.grid, start) == ColorAt(input, start)
    ensures Core(input, start, end, r)
  {
  }

  /** The queue side of a pop: the popped spot was queued and leaves both
      the queue and the membership set, which stay in step. */
  lemma PopQueue(s: SearchState)
    requires QueueOk(s) && |s.queue| > 0
    ensures var r := Pop(s); var e := PopMin(s.queue).0;
            && e in s.queue && Front(s) == e.cell && e.cell in s.openHash
            && QueueOk(r) && |r.queue| == |s.queue| - 1 && (forall x :: x in r.queue ==> x in s.queue)
            && r.openHash == s.openHash - {e.cell} && r.expanded == s.expanded + [e.cell]
            && r.g == s.g && r.f == s.f && r.cameFrom == s.cameFrom && r.grid == s.grid
  {
    var i := MinIndex(s.queue);
    RemoveAtKeepsShape(s.queue, i);
    assert s.queue[i].cell in QueuedCells(s.queue);
  }

  /** Scores survive a pop: the queue only lost entries and the popped spot
      had a finite g. */
  lemma PopScores(input: Grid, start: Pos, end: Pos, s: SearchState, r: SearchState, cur: Pos)
    requires s.g.Keys <= s.f.Keys && ScoresOk(input, start, end, s)
    requires r.g == s.g && r.f == s.f && (forall x :: x in r.queue ==> x in s.queue)
    requires r.expanded == s.expanded + [cur] && cur in s.g && s.g[cur].Fin?
    ensures ScoresOk(input, start, end, r)
  {
  }

  /** The predecessor tree depends on g and cameFrom only. */
  lemma TreeSame(input: Grid, start: Pos, s: SearchState, r: SearchState)
    requires TreeOk(input, start, s) && r.g == s.g && r.cameFrom == s.cameFrom
    ensures TreeOk(input, start, r)
  {
    assert forall m :: m in r.cameFrom ==> Edge(input, start, s, m) == Edge(input, start, r, m);
  }

  /** After a pop only the popped spot is off its expected colour. */
  lemma PopColors(input: Grid, start: Pos, s: SearchState, r: SearchState, cur: Pos)
    requires ColorsOk(input, start, s, {}) && r.grid == s.grid
    requires r.openHash == s.openHash - {cur} && r.expanded == s.expanded + [cur]
    ensures ColorsOk(input, start, r, {cur})
  {
    forall p | InBounds(p, |input|) && p != cur
      ensures ColorAt(r.grid, p) == Expected(input, start, r, p)
    {
      assert ColorAt(s.grid, p) == Expected(input, start, s, p);
    }
  }

  /** After a pop only the popped spot may be unrelaxed. */
  lemma PopRelaxed(input: Grid, s: SearchState, r: SearchState, cur: Pos)
    requires RelaxedOk(input, s, {}) && r.g == s.g && r.openHash == s.openHash - {cur}
    ensures RelaxedOk(input, r, {cur})
  {
    forall m | m in r.g && m != cur && m !in r.openHash && r.g[m].Fin?
      ensures RelaxedAt(input, r, m)
    {
      assert RelaxedAt(input, s, m);
    }
  }

  /** Popping the least entry from a state satisfying Inv: the popped spot
      was queued; when it is not end the result satisfies Mid for it, and
      when it is end the run's bookkeeping still holds, with end exempt from
      the colour rule. The g scores stay and the queue shrinks by one. */
  lemma PopStep(input: Grid, start: Pos, end: Pos, s: SearchState)
    requires Inv(input, start, end, s) && |s.queue| > 0
    ensures var cur := Front(s); var r := Pop(s);
            && cur in s.openHash && InBounds(cur, |input|)
            && r.g == s.g && |r.queue| == |s.queue| - 1
            && r.expanded == s.expanded + [cur] && r.openHash == s.openHash - {cur}
            && (cur != end ==> Mid(input, start, end, r, cur))
            && (cur == end ==> Core(input, start, end, r) && ColorsOk(input, start, r, {end}))
  {
    var r := Pop(s);
    var e := PopMin(s.queue).0;
    var cur := e.cell;
    PopQueue(s);
    assert s.g[cur].Fin?;
    PopScores(input, start, end, s, r, cur);
    TreeSame(input, start, s, r);
    PopColors(input, start, s, r, cur);
    PopRelaxed(input, s, r, cur);
    CoreIntro(input, start, end, r);
    if cur != end {
      MidIntro(input, start, end, r, cur);
    }
  }

  /** Closing recolours cur alone, and only when it is not start. */
  lemma CloseGrid(input: Grid, start: Pos, s: SearchState, cur: Pos)
    requires SameLayout(s.grid, input) && InBounds(cur, |input|) && InBounds(start, |input|)
    requires ColorAt(s.grid, start) == ColorAt(input, start)
    ensures var r := Close(s, cur, start);
            && r == s.(grid := r.grid)
            && SameLayout(r.grid, input) && ColorAt(r.grid, start) == ColorAt(input, start)
            && (cur != start ==> ColorAt(r.grid, cur) == Red)
            && forall p :: InBounds(p, |input|) && p != cur ==> ColorAt(r.grid, p) == ColorAt(s.grid, p)
  {
    if cur != start {
      RecolorKeepsLayout(s.grid, input, cur, SpotAt(s.grid, cur).MakeClosed());
    }
  }

  /** Once closed, cur has its expected colour too. */
  lemma CloseColors(input: Grid, start: Pos, s: SearchState, r: SearchState, cur: Pos)
    requires ColorsOk(input, start, s, {cur}) && InBounds(cur, |input|)
    requires WellFormed(r.grid) && |r.grid| == |input|
    requires r.openHash == s.openHash && r.expanded == s.expanded
    requires cur !in s.openHash && cur in s.expanded
    requires cur != start ==> ColorAt(r.grid, cur) == Red
    requires cur == start ==> ColorAt(r.grid, cur) == ColorAt(input, start)
    requires forall p :: InBounds(p, |input|) && p != cur ==> ColorAt(r.grid, p) == ColorAt(s.grid, p)
    ensures ColorsOk(input, start, r, {})
  {
    forall p | InBounds(p, |input|)
      ensures ColorAt(r.grid, p) == Expected(input, start, r, p)
    {
      if p != cur {
        assert ColorAt(s.grid, p) == Expected(input, start, s, p);
      }
    }
  }

  /** Once cur is relaxed, every spot that left the queue is. */
  lemma CloseRelaxed(input: Grid, s: SearchState, r: SearchState, cur: Pos)
    requires RelaxedOk(input, s, {cur}) && cur in s.g && s.g[cur].Fin? && RelaxedAt(input, s, cur)
    requires r.g == s.g && r.openHash == s.openHash
    ensures RelaxedOk(input, r, {})
  {
    forall m | m in r.g && m !in r.openHash && r.g[m].Fin?
      ensures RelaxedAt(input, r, m)
    {
      assert RelaxedAt(input, s, m);
    }
  }

  /** The queue and the scores do not look at the grid. */
  lemma BookkeepingSame(input: Grid, start: Pos, end: Pos, s: SearchState, r: SearchState)
    requires r == s.(grid := r.grid) && QueueOk(s) && s.g.Keys <= s.f.Keys && ScoresOk(input, start, end, s)
    ensures QueueOk(r) && r.g.Keys <= r.f.Keys && ScoresOk(input, start, end, r)
  {
  }

  /** Closing cur once all its neighbours are relaxed restores Inv. */
  lemma CloseStep(input: Grid, start: Pos, end: Pos, s: SearchState, cur: Pos)
    requires Mid(input, start, end, s, cur) && RelaxedAt(input, s, cur)
    ensures InGrid(s.grid, cur)
    ensures Inv(input, start, end, Close(s, cur, start))
  {
    var r := Close(s, cur, start);
    CloseGrid(input, start, s, cur);
    CloseColors(input, start, s, r, cur);
    CloseRelaxed(input, s, r, cur);
    TreeSame(input, start, s, r);
    BookkeepingSame(input, start, end, s, r);
    InvIntro(input, start, end, r);
  }
}
